=== FILE: README.md ===
# Sales growth reporter — a Dafny model

This project models the data-transformation core of the sales reporter in
`src/utils.py`. `DataReporter` reads a sales table whose rows each describe one
entity (a product or a brand) in one week of one period. It groups the rows
into cohorts: one cohort per entity identifier and per week-of-year, where the
week-of-year is the first five characters of the `dd/mm/yyyy` date. Each cohort
becomes one comparison record. The record holds the previous and current week
dates and the gross-sales and units-sold growth in per cent. A lone
previous-period row counts as a total loss (-100). A lone current-period row
has unknown growth (null). The reporters then add the entity's descriptive
fields and sort the records by name and current week.

The modules follow the program's structure:

- `Wrappers`, `Errors`: `Option`, `Result` and the ways a run can fail. Each
  Python exception the core can raise becomes one `Error` constructor.
- `Rows`: a row is the dictionary `DictReader` yields (`map<string, string>`).
  Covers subscripting (`Lookup`), the `[:5]` date key, the period test, and the
  truthiness of a cell.
- `Dates`: `datetime.strptime(text, "%d/%m/%Y")`, following the CPython
  directive patterns. A one-digit or space-padded day and a one-digit month are
  accepted, and the year takes exactly four digits. Also covers
  `replace(year=…)` and chronological order.
- `Decimals`: `float()` on decimal text, and `round(x, 2)` with ties to even.
- `Growth`: `_calculate_growth`, and the per-metric blank check that guards it
  in `_clean_data`.
- `Entities`: the `_data_processing_hook` of `ProductReporter` and `BrandReporter`.
- `Ingest`: `_data_parser`.
- `Cohorts`: the two nested loops and the filter in `calculate_data`.
- `Reconciliation`: `_clean_data`.
- `Ordering`, `Sorting`: the `itemgetter(name, "current_week_commencing_date")`
  key order, and a stable insertion sort that stands in for Python's `sorted`.
- `Reporting`: `calculate_data` as a whole.
- `Scenarios`: worked cases on rows shaped like the repository's test fixtures.

The sets `_data_parser` builds have no defined iteration order. Each order is
therefore a parameter: any duplicate-free sequence that enumerates the set.

### Edge cases the code handles in unexpected ways

The model follows the code in each case:

- Zero sales in both periods: the cells are `"0"`, not empty strings, so the
  blank check does not apply. `_calculate_growth(0.0, 0.0)` then divides by
  zero, where one might expect a null growth.
  See `Scenarios.ZeroSalesBothPeriods` and `Growth.ZeroCellsDivideByZero`.
- Two rows that are both in period `1`, or both not, do not raise a dedicated
  error. They leave `first_period` or `second_period` unbound, which the model
  reports as `UnboundPeriod`. See `Reconciliation.AmbiguousPair`.
- A cohort of three or more rows is not rejected. The loop keeps the last
  period-`1` row and the last other row. See `Reconciliation.LastOfPeriod` and
  `Reconciliation.ReconcileSeveral`.

## Model

| member | source | states |
|---|---|---|
| Rows.Lookup | src/utils.py:49-51 | Subscripting a row succeeds exactly when the column is present and then yields its cell; otherwise the error names the missing column (the `KeyError`). |
| Rows.DateKey | src/utils.py:51 | The date key is the first five characters of the date text, or the whole text when it is shorter. |
| Dates.ParseDate | src/utils.py:114-115 | Every date that `strptime` accepts is a real calendar date in years 1–9999; every rejection is a malformed-date error carrying the text. |
| Dates.ParseFormatRoundTrip | src/utils.py:90 | Parsing the zero-padded `dd/mm/yyyy` text of any valid date gives that date back. |
| Dates.ParseCanonical | src/utils.py:90 | On any zero-padded `dd/mm/yyyy` text, parsing succeeds exactly when the fields name a real date, and otherwise fails with a malformed-date error: 31/04, 29/02 of a common year, day 00, month 13 and year 0000 are all rejected. |
| Dates.IsoTextRejected | src/utils.py:90 | `2021-07-25` is rejected as a malformed date. |
| Dates.ThirtyFirstOfApril | src/utils.py:114 | `31/04/2021` is rejected as a malformed date. |
| Dates.DateKeyIsDayAndMonth | src/utils.py:51 | For canonical date texts, two rows share a date key exactly when their dates have the same day and month. |
| Dates.ShiftYear | src/utils.py:95 | `replace(year=year+delta)` keeps day and month, moves the year by delta and yields a valid date; on failure it reports the day, month and target year. |
| Dates.ShiftYearFailure | src/utils.py:101 | Moving a valid date fails exactly when the target year leaves 1–9999, or when the date is 29 February and the target year is not a leap year. |
| Dates.ShiftYearInverse | src/utils.py:93-101 | A successful move by +delta is undone by a move by -delta. |
| Dates.ShiftYearOrder | src/utils.py:93-101 | Moving forward gives a later date and moving back an earlier one, so `previous` always precedes `current` in the one-row flow. |
| Decimals.ParseFloat | src/utils.py:121 | `float()` of a cell either gives a number from non-empty text or fails with a malformed-number error carrying the text. |
| Decimals.ParseDecimal | src/utils.py:121 | Text with a decimal point reads as its whole part plus its fraction, and as the negation of that under a leading `-`. Either part may be empty, but not both. |
| Decimals.ParseCents | src/utils.py:121 | The two-decimal text of any amount, with or without a leading `-`, converts back to that amount. |
| Decimals.ParseDigits | src/utils.py:121 | Unsigned digits without a point convert to their whole-number value. |
| Decimals.ParseNatText | src/utils.py:121 | The decimal text of any natural number converts back to that number. |
| Decimals.EmptyIsMalformed | src/utils.py:121 | `float('')` raises. |
| Decimals.RoundHalfEven | src/utils.py:140 | The result is an integer within one half of the input, and an exact half goes to the even neighbour. |
| Decimals.Round2 | src/utils.py:140 | `round(x, 2)` is within 0.005 of x and has at most two decimal places. An exact half goes to the neighbour with an even last digit. |
| Decimals.Round2Nearest | src/utils.py:140 | No multiple of 0.01 is closer to x than `round(x, 2)`. |
| Decimals.Round2Sign | src/utils.py:140 | Rounding to two places never flips the sign of a growth. |
| Decimals.Round2Exact | src/utils.py:140 | A value that already has two decimal places is left unchanged by rounding. |
| Growth.CalculateGrowth | src/utils.py:135-140 | Growth fails exactly when the previous value is zero, with a division-by-zero error; otherwise it is 100·(current−previous)/previous rounded to two decimals: within 0.005, on the 0.01 grid, and even in the last digit on an exact half. |
| Growth.GrowthNearest | src/utils.py:140 | No two-decimal figure is closer to the exact percentage than the reported growth. |
| Growth.GrowthSign | src/utils.py:140 | For a positive previous value, growth is non-negative when sales rise and non-positive when they fall; the signs swap for a negative previous value; equal values give 0. |
| Growth.GrowthUnclamped | src/utils.py:140 | Any two-decimal percentage k/100, including ones below -100 or above 100, is the growth of some pair, so the result is not clamped. |
| Growth.MetricGrowth | src/utils.py:118-126 | Growth for one metric is null exactly when both cells are empty. Otherwise: a malformed first cell is reported before the second row is read, a current row without the column fails with a missing-column error, a malformed second cell is reported as such, a zero previous value divides by zero, and the result is `_calculate_growth` of the two parsed values. |
| Growth.Computed | src/utils.py:121 | On the non-blank path, a malformed previous cell raises before the current cell is read. A missing or malformed current cell raises next; otherwise growth fails exactly when the previous value is zero and agrees with `_calculate_growth`. |
| Growth.ZeroCellsDivideByZero | src/utils.py:118-121 | Two `"0"` cells pass the blank check and reach the division, which fails. |
| Growth.OneEmptyCellIsMalformed | src/utils.py:118-121 | One empty cell beside one parseable cell reaches `float('')` and fails as malformed. |
| Entities.ReportersAreValid | src/utils.py:163-170 | The key each reporter sorts by is among the keys its hook produces. |
| Entities.CopyFields | src/utils.py:163-185 | Building the hook's dictionary succeeds exactly when every source column is present, and its keys are exactly the hook's output keys. |
| Entities.CopyFieldsValues | src/utils.py:163-185 | Each output key holds the cell of the column written last under that key. |
| Entities.CopyFieldsFirstMissing | src/utils.py:163-185 | A failing hook reports the first missing column in dictionary order. |
| Entities.Enrich | src/utils.py:130 | The hook succeeds exactly when all its columns are present, and its result carries the sort name key. |
| Entities.ProductEnrichment | src/utils.py:163-167 | The product hook yields `barcode_no` and `product_name` copied from the row, or names the first missing column. |
| Entities.BrandEnrichment | src/utils.py:181-185 | The brand hook yields `brand_id` and `brand_name` (from the `brand` column), or names the first missing column. |
| Ingest.ParseRecords | src/utils.py:33-57 | An empty file fails. Otherwise ingestion succeeds exactly when every row has the identifier and date columns. The result then keeps all rows in order, with the set of identifiers and the set of date keys. A failure names the missing column of the first bad row. |
| Ingest.GrowSets | src/utils.py:45-51 | Each row read adds exactly its identifier and its date key to the two sets. |
| Cohorts.Matching | src/utils.py:70 | The list comprehension keeps exactly the rows whose identifier and date key match, with their multiplicities. |
| Cohorts.MatchingAppend | src/utils.py:70 | The selection keeps file order: the cohort of two concatenated row lists is the cohort of the first followed by the cohort of the second. |
| Cohorts.MatchingOne | src/utils.py:70 | One row is kept exactly when it matches both the identifier and the date key. |
| Cohorts.CohortsForIdSound | src/utils.py:68-73 | Every cohort of one identifier has that identifier, a listed date key, and exactly the matching rows, and is non-empty. |
| Cohorts.CohortsForIdComplete | src/utils.py:68-73 | Every date key with matching rows yields a cohort for that identifier. |
| Cohorts.CohortsForIdKeys | src/utils.py:68-73 | Every cohort of one identifier has one of the listed date keys. |
| Cohorts.CohortsForIdDistinct | src/utils.py:68-73 | Distinct date keys give distinct cohorts for one identifier. |
| Cohorts.CohortsSound | src/utils.py:67-73 | Every cohort visited is the complete, non-empty selection of an (identifier, date key) pair from the two sets. |
| Cohorts.CohortsComplete | src/utils.py:67-73 | A pair from the cross product is visited exactly when it selects at least one row. |
| Cohorts.CohortsDistinct | src/utils.py:67-73 | No pair is visited twice. |
| Cohorts.CohortCount | src/utils.py:67-73 | The number of cohorts equals the number of non-empty pairs in the cross product. |
| Reconciliation.LastOfPeriod | src/utils.py:107-111 | The loop leaves the variable bound exactly when some row has the period, and then bound to the last such row. |
| Reconciliation.LastOfPair | src/utils.py:107-111 | On two rows the loop keeps the second row if it has the period, else the first if it has, else nothing. |
| Reconciliation.ReconcileSingle | src/utils.py:89-103 | A lone period-`1` row is dated previous = its date and current = one year later, with -100 for both growths. Any other lone row is dated current = its date and previous = one year earlier, with null growths. A missing date or period column, a malformed date, an impossible year move (such as 29 February into a non-leap year) and a failing hook are each reported as that error. Both dates of a success are valid calendar dates, and the descriptive fields come from the hook. |
| Reconciliation.ReconcileSeveral | src/utils.py:106-130 | For two or more rows, in raise order: a missing period column, an unbound `first_period`, its missing or malformed date, an unbound `second_period`, then its missing or malformed date. With both rows bound, it succeeds exactly when both dates parse, both metric growths succeed and the hook succeeds on the first row. A success has both dates from the last row of each period, each growth that metric's growth, and the descriptive fields from the first row. |
| Reconciliation.Paired | src/utils.py:113-115 | Reading the dates raises when `first_period` is unbound or its date is missing or malformed, then likewise for `second_period`. Success needs both dates to parse, and then the result is the comparison of the two rows. |
| Reconciliation.Compare | src/utils.py:117-130 | Gross growth is computed first, then unit growth, then the hook; the first of them to raise decides the error. A success carries the two dates, both growths and the hook's fields. |
| Reconciliation.SeveralGrowthErrors | src/utils.py:117-130 | With both period rows bound and both dates parsed, the cohort fails with the gross growth's error (malformed or missing cell, zero previous value), else the unit growth's, else the hook's missing column. |
| Reconciliation.Reconcile | src/utils.py:89-130 | An empty cohort fails with `first_period` unbound; every success carries exactly the hook's keys, taken from the first row. |
| Reconciliation.TwoRowCohort | src/utils.py:107-130 | In a two-row cohort with one period-`1` row and one other row, a success takes the previous week from the period-`1` row and the current week from the other, whichever order they are in. When both dates parse, both growths succeed and the hook succeeds, the cohort reconciles to exactly that record, with the descriptive fields from whichever row comes first. |
| Reconciliation.AmbiguousPair | src/utils.py:107-115 | Two rows of the same period never reconcile: with no period-`1` row `first_period` is unbound, and with two of them `second_period` is. |
| Ordering.StrLessIrreflexive | src/utils.py:170 | No string sorts before itself. |
| Ordering.StrLessTransitive | src/utils.py:170 | String order is transitive. |
| Ordering.StrLessTotal | src/utils.py:170 | Any two distinct strings are ordered one way or the other. |
| Ordering.StrLessAsymmetric | src/utils.py:170 | String order is asymmetric. |
| Ordering.StrLessCommonPrefix | src/utils.py:170 | A shared prefix does not change the order of two strings. |
| Ordering.KeyLessIrreflexive | src/utils.py:170 | The (name, current week) key order is irreflexive. |
| Ordering.KeyLessTransitive | src/utils.py:170 | The key order is transitive. |
| Ordering.KeyLessTotal | src/utils.py:170 | Any two distinct keys are ordered. |
| Ordering.KeyLessAsymmetric | src/utils.py:170 | The key order is asymmetric. |
| Sorting.WithKeyMembers | src/utils.py:170 | The records selected for a sort key are exactly the records that have that key. |
| Sorting.SortTwo | src/utils.py:170 | Two records with different keys come out in key order, whatever their input order. |
| Sorting.InOrderTransitive | src/utils.py:170 | "may precede" under the key order is transitive. |
| Sorting.InsertPermutes | src/utils.py:170 | Inserting adds exactly one record and loses none. |
| Sorting.InsertSorted | src/utils.py:170 | Inserting into a sorted list keeps it sorted. |
| Sorting.InsertStable | src/utils.py:170 | Inserting a record puts it before all records with an equal key. |
| Sorting.SortCorrect | src/utils.py:170 | The insertion sort returns a sorted permutation in which records with equal keys keep their input order. |
| Sorting.StableSortUnique | src/utils.py:170 | Two sorted lists with the same records per key, in the same order, are equal; so the stable sort's output is the one `sorted` returns. |
| Sorting.SortReport | src/utils.py:169-188 | Either reporter's sort returns the records sorted by (name, current week), as a permutation, keeping input order among equal keys. |
| Reporting.Collect | src/utils.py:67-73 | A loop that stops at the first exception succeeds exactly when every step does, and then keeps every value in order. |
| Reporting.CollectFirstFailure | src/utils.py:67-73 | A loop that stops at the first exception reports the error of the first failing step. |
| Reporting.ReconcileAll | src/utils.py:66-73 | Reconciling all cohorts succeeds exactly when each one does, and then yields one record per cohort in visiting order. |
| Reporting.FirstFailureReported | src/utils.py:73 | A failing run reports the error of the first cohort that fails. |
| Reporting.CalculateData | src/utils.py:59-78 | On ingested data, the run succeeds exactly when every cohort reconciles, and otherwise fails with the reconciliation error. A success returns one record per non-empty (identifier, date key) pair. The records are a permutation of the reconciled ones, sorted by (name, current week), stably with respect to visiting order. |
| Reporting.ReportContents | src/utils.py:66-76 | The report holds exactly the records that reconciling the cohorts produces. |
| Reporting.ReportFailure | src/utils.py:66-73 | A failing run fails with the error of the first failing cohort in visiting order. |
| Reporting.ReconciledCarryNames | src/utils.py:169-170 | Every reconciled record carries the reporter's sort name, so the `itemgetter` key never raises. |
| Reporting.InCohortsIffReconciled | src/utils.py:71-73 | A record is in the unsorted list exactly when some cohort reconciles to it. |
| Reporting.RowHasCohort | src/utils.py:67-73 | Every ingested row belongs to some visited cohort. |
| Reporting.RowInOneCohort | src/utils.py:67-73 | No row belongs to two visited cohorts. |
| Scenarios.LonePrevious | src/utils.py:89-97 | A lone period-`1` row whose date parses is compared with the same day a year later, at -100 growth. The year move's error is raised if that day does not exist. |
| Scenarios.LoneCurrent | src/utils.py:98-103 | A lone current-period row whose date parses is compared with the same day a year earlier, with null growths, or fails with the year move's error when that day does not exist. |
| Scenarios.PreviousOnly | src/utils.py:92-97 | A lone period-`1` brand row dated 25/07/2021 gives 2021-07-25 → 2022-07-25 with -100 growths. |
| Scenarios.CurrentOnly | src/utils.py:98-103 | A lone period-`2` row dated 04/07/2022 gives 2021-07-04 → 2022-07-04 with null growths. |
| Scenarios.LeapDayPrevious | src/utils.py:95 | A lone period-`1` row dated 29/02/2020 fails, because 29 February 2021 does not exist. |
| Scenarios.ZeroSalesBothPeriods | src/utils.py:118-121 | A two-period cohort with gross sales `"0"` in both rows fails with division by zero, in either row order. |
| Scenarios.ZeroSalesCohort | src/utils.py:117-121 | A cohort of any size whose two bound rows hold `"0"` gross sales fails with division by zero. |
| Scenarios.StandardGrowth | src/utils.py:140 | Gross sales 314.31 then 303.78 give -3.35. |
| Scenarios.FixtureSalesCells | src/utils.py:121 | The cells "314.31" and "303.78" convert to 314.31 and 303.78. |
| Scenarios.FixtureGrossGrowth | src/utils.py:118-121 | Rows holding "314.31" then "303.78" gross sales give a gross growth of -3.35. |
| Scenarios.UnitGrowthExample | src/utils.py:140 | Units 38 then 26 give -31.58. |
| Scenarios.FixtureUnitGrowth | src/utils.py:123-126 | Rows holding "38" then "26" units give a unit growth of -31.58. |
| Scenarios.BrandPair | src/utils.py:106-130 | Brand A's rows of 25/07/2021 and 25/07/2022 reconcile, in either order, to one record: 2021-07-25 to 2022-07-25, gross growth -3.35, unit growth -31.58, brand id 1 and name "Brand A". |
| Scenarios.ProductNamesOrdered | src/utils.py:170 | "Product A" sorts before "Product B". |
| Scenarios.NameDecides | src/utils.py:169-170 | Two products whose names differ are ordered by name, whatever their current weeks. |
| Scenarios.SortByName | src/utils.py:170 | "Product A" is listed before "Product B" even when it has the later week and comes second in the input. |

## Left out

- `json_outputter` and `_csv_ingester` (file reading and writing, directory creation, JSON serialisation) are I/O. The model starts from the header and rows that `DictReader` yields and ends at the sorted list.
- `DictReader` tokenising is left out: quoting, and short rows padded with `None` or long rows collected under a `None` key. Cells are always strings here.
- `logging` calls carry no behaviour and are left out.
- The `None` guard at the top of `calculate_data` is left out, because `__init__` always binds the three attributes before it runs.
- The base `DataReporter` hooks, which return `{}` and the unsorted list, are left out: the class has no identifier column and is never instantiated.
- Exception classes and messages collapse to the `Error` datatype. `KeyError`, `ValueError`, `ZeroDivisionError` and `UnboundLocalError` are distinguished only by constructor.
- The iteration order of Python sets is a parameter. The model does not prove that the sorted output is independent of it when two records share a name and a current week; those keep cohort order.
- Decimals.ParseFloat: accepts only an optional sign followed by digits with at most one `.` and at least one digit, so `.5` and `5.` are read as Python reads them. Lemmas state the value for unsigned whole numbers and for text with a point, unsigned or under `-`. A leading `+` and a signed whole number have no lemma of their own. Exponents, `inf`/`nan`, surrounding whitespace and digit underscores are not modelled, because the sales columns hold plain decimals.
- Growth.CalculateGrowth: computes on exact reals and rounds the exact quotient. Python rounds the nearest binary double, which can differ in the last place on a tie, so the contract states the rounding on the exact value: within 0.005, on the 0.01 grid, and ties to the even neighbour.
- Decimals.Round2: rounds the exact real, not a binary double, for the same reason.
- Dates.ParseDate: accepts ASCII digits only. `strptime`'s `\d` also matches other Unicode decimal digits, and those are not modelled.
- Entities.ValidKind: does not require the hook's keys to differ from the four comparison keys. `returned_value.update(...)` would overwrite such a key, while `Comparison` keeps the hook's fields apart. Neither reporter's keys collide.
- Reconciliation.ReconcileSingle: the -100 sentinel is a Python `int`, while computed growths are `float`s. The model uses the real -100.0 for both.

=== FILE: cohorts.dfy ===
/** The cohort loop of `calculate_data`: for every identifier and every date
    key, the rows that match both; empty cohorts are skipped. Python
    iterates two sets, so their order is a parameter here: `ids` and `keys`
    are the sequences in which the sets happen to be enumerated. */
module Cohorts {
  import opened Rows
  import opened Entities

  /** The rows of one entity in one calendar week, with the pair that selected them. */
  datatype Cohort = Cohort(id: string, dateKey: string, members: seq<Row>)

  predicate NoDuplicates<T(==)>(s: seq<T>) {
    forall i, j :: 0 <= i < j < |s| ==> s[i] != s[j]
  }

  /** The filter of the list comprehension: `row[id] == identifier and row['week_commencing_date'][:5] == date`. */
  predicate InCohort(kind: EntityKind, row: Row, id: string, key: string) {
    && kind.idColumn in row && row[kind.idColumn] == id
    && DateColumn in row && DateKey(row[DateColumn]) == key
  }

  /** The rows of `rows` in cohort (`id`, `key`), in file order. */
  function Matching(kind: EntityKind, rows: seq<Row>, id: string, key: string): (m: seq<Row>)
    ensures forall x :: multiset(m)[x] == if InCohort(kind, x, id, key) then multiset(rows)[x] else 0
    ensures forall x :: x in m <==> x in rows && InCohort(kind, x, id, key)
  {
    if rows == [] then []
    else
      assert rows == [rows[0]] + rows[1..];
      (if InCohort(kind, rows[0], id, key) then [rows[0]] else []) + Matching(kind, rows[1..], id, key)
  }

  /** Selection keeps file order: the cohort of a concatenation is the
      cohort of the first part followed by the cohort of the second. */
  lemma {:induction false} MatchingAppend(kind: EntityKind, a: seq<Row>, b: seq<Row>, id: string, key: string)
    ensures Matching(kind, a + b, id, key) == Matching(kind, a, id, key) + Matching(kind, b, id, key)
    decreases |a|
  {
    if a == [] {
      assert a + b == b;
    } else {
      assert (a + b)[0] == a[0] && (a + b)[1..] == a[1..] + b;
      MatchingAppend(kind, a[1..], b, id, key);
    }
  }

  /** A single row is selected exactly when it is in the cohort. */
  lemma MatchingOne(kind: EntityKind, row: Row, id: string, key: string)
    ensures Matching(kind, [row], id, key) == if InCohort(kind, row, id, key) then [row] else []
  {
    assert [row][1..] == [];
  }

  /** The (identifier, date key) pairs of a cohort list, in order. */
  function PairsOf(cs: seq<Cohort>): (ps: seq<(string, string)>)
    ensures |ps| == |cs|
    ensures forall i :: 0 <= i < |cs| ==> ps[i] == (cs[i].id, cs[i].dateKey)
  {
    if cs == [] then [] else [(cs[0].id, cs[0].dateKey)] + PairsOf(cs[1..])
  }

  /** The inner loop, over the date keys for one identifier. */
  function CohortsForId(kind: EntityKind, rows: seq<Row>, id: string, keys: seq<string>): seq<Cohort> {
    if keys == [] then []
    else
      var m := Matching(kind, rows, id, keys[0]);
      (if m == [] then [] else [Cohort(id, keys[0], m)]) + CohortsForId(kind, rows, id, keys[1..])
  }

  /** `calculate_data`'s two nested loops, before reconciliation. */
  function CohortsOf(kind: EntityKind, rows: seq<Row>, ids: seq<string>, keys: seq<string>): seq<Cohort> {
    if ids == [] then []
    else CohortsForId(kind, rows, ids[0], keys) + CohortsOf(kind, rows, ids[1..], keys)
  }

  /** A cohort is the complete, non-empty selection of its pair. */
  ghost predicate WellBuilt(kind: EntityKind, rows: seq<Row>, c: Cohort) {
    c.members == Matching(kind, rows, c.id, c.dateKey) && c.members != []
  }

  lemma {:induction false} CohortsForIdSound(kind: EntityKind, rows: seq<Row>, id: string, keys: seq<string>)
    ensures forall c :: c in CohortsForId(kind, rows, id, keys) ==> c.id == id && c.dateKey in keys && WellBuilt(kind, rows, c)
  {
    if keys != [] {
      CohortsForIdSound(kind, rows, id, keys[1..]);
    }
  }

  lemma {:induction false} CohortsForIdComplete(kind: EntityKind, rows: seq<Row>, id: string, keys: seq<string>)
    ensures forall k :: k in keys && Matching(kind, rows, id, k) != [] ==> (id, k) in PairsOf(CohortsForId(kind, rows, id, keys))
  {
    if keys != [] {
      var m := Matching(kind, rows, id, keys[0]);
      var here := if m == [] then [] else [Cohort(id, keys[0], m)];
      var rest := CohortsForId(kind, rows, id, keys[1..]);
      CohortsForIdComplete(kind, rows, id, keys[1..]);
      PairsOfAppend(here, rest);
      assert forall k :: k in keys ==> k == keys[0] || k in keys[1..];
    }
  }

  lemma {:induction false} CohortsForIdKeys(kind: EntityKind, rows: seq<Row>, id: string, keys: seq<string>)
    ensures forall c :: c in CohortsForId(kind, rows, id, keys) ==> c.dateKey in keys
  {
    if keys != [] {
      CohortsForIdKeys(kind, rows, id, keys[1..]);
    }
  }

  lemma {:induction false} CohortsForIdDistinct(kind: EntityKind, rows: seq<Row>, id: string, keys: seq<string>)
    requires NoDuplicates(keys)
    ensures NoDuplicates(PairsOf(CohortsForId(kind, rows, id, keys)))
  {
    if keys != [] {
      var m := Matching(kind, rows, id, keys[0]);
      var here := if m == [] then [] else [Cohort(id, keys[0], m)];
      var rest := CohortsForId(kind, rows, id, keys[1..]);
      NoDuplicatesTail(keys);
      CohortsForIdDistinct(kind, rows, id, keys[1..]);
      CohortsForIdKeys(kind, rows, id, keys[1..]);
      assert CohortsForId(kind, rows, id, keys) == here + rest;
      PairsOfAppend(here, rest);
      forall p | p in PairsOf(rest) ensures p.1 != keys[0] {
        var j :| 0 <= j < |PairsOf(rest)| && PairsOf(rest)[j] == p;
        assert rest[j] in rest && p.1 == rest[j].dateKey;
      }
      assert forall p :: p in PairsOf(here) ==> p.1 == keys[0];
      NoDuplicatesAppend(PairsOf(here), PairsOf(rest));
    }
  }

  /** Every emitted cohort comes from an enumerated pair and holds exactly the rows of that pair. */
  lemma {:induction false} CohortsSound(kind: EntityKind, rows: seq<Row>, ids: seq<string>, keys: seq<string>)
    ensures forall c :: c in CohortsOf(kind, rows, ids, keys) ==>
              c.id in ids && c.dateKey in keys && c.members == Matching(kind, rows, c.id, c.dateKey) && c.members != []
  {
    if ids != [] {
      CohortsForIdSound(kind, rows, ids[0], keys);
      CohortsSound(kind, rows, ids[1..], keys);
    }
  }

  /** Every enumerated pair with a non-empty selection yields a cohort, and no other pair does. */
  lemma {:induction false} CohortsComplete(kind: EntityKind, rows: seq<Row>, ids: seq<string>, keys: seq<string>)
    ensures forall i, k :: i in ids && k in keys ==>
              (Matching(kind, rows, i, k) != [] <==> (i, k) in PairsOf(CohortsOf(kind, rows, ids, keys)))
  {
    if ids != [] {
      var here := CohortsForId(kind, rows, ids[0], keys);
      var rest := CohortsOf(kind, rows, ids[1..], keys);
      CohortsForIdComplete(kind, rows, ids[0], keys);
      CohortsComplete(kind, rows, ids[1..], keys);
      CohortsSound(kind, rows, ids, keys);
      PairsOfAppend(here, rest);
      assert forall i :: i in ids ==> i == ids[0] || i in ids[1..];
      forall i, k | i in ids && k in keys && (i, k) in PairsOf(CohortsOf(kind, rows, ids, keys))
        ensures Matching(kind, rows, i, k) != []
      {
        var cs := CohortsOf(kind, rows, ids, keys);
        var j :| 0 <= j < |PairsOf(cs)| && PairsOf(cs)[j] == (i, k);
        assert cs[j] in cs;
      }
    }
  }

  /** Each non-empty pair is visited exactly once. */
  lemma {:induction false} CohortsDistinct(kind: EntityKind, rows: seq<Row>, ids: seq<string>, keys: seq<string>)
    requires NoDuplicates(ids) && NoDuplicates(keys)
    ensures NoDuplicates(PairsOf(CohortsOf(kind, rows, ids, keys)))
  {
    if ids != [] {
      var here := CohortsForId(kind, rows, ids[0], keys);
      var rest := CohortsOf(kind, rows, ids[1..], keys);
      NoDuplicatesTail(ids);
      CohortsForIdDistinct(kind, rows, ids[0], keys);
      CohortsDistinct(kind, rows, ids[1..], keys);
      CohortsForIdSound(kind, rows, ids[0], keys);
      CohortsSound(kind, rows, ids[1..], keys);
      PairsOfAppend(here, rest);
      forall p | p in PairsOf(here) ensures p.0 == ids[0] {
        var j :| 0 <= j < |PairsOf(here)| && PairsOf(here)[j] == p;
        assert here[j] in here;
      }
      forall p | p in PairsOf(rest) ensures p.0 != ids[0] {
        var j :| 0 <= j < |PairsOf(rest)| && PairsOf(rest)[j] == p;
        assert rest[j] in rest;
      }
      NoDuplicatesAppend(PairsOf(here), PairsOf(rest));
    }
  }

  lemma NoDuplicatesTail<T>(s: seq<T>)
    requires NoDuplicates(s) && s != []
    ensures NoDuplicates(s[1..]) && s[0] !in s[1..]
  {
    var tail := s[1..];
    forall i, j | 0 <= i < j < |tail| ensures tail[i] != tail[j] { assert s[i + 1] != s[j + 1]; }
    forall j | 0 <= j < |tail| ensures tail[j] != s[0] { assert s[j + 1] != s[0]; }
  }

  lemma NoDuplicatesAppend<T>(a: seq<T>, b: seq<T>)
    requires NoDuplicates(a) && NoDuplicates(b)
    requires forall x :: x in a ==> x !in b
    ensures NoDuplicates(a + b)
  {
    forall i, j | 0 <= i < j < |a + b| ensures (a + b)[i] != (a + b)[j] {
      if j < |a| {
      } else if i >= |a| {
        assert (a + b)[i] == b[i - |a|] && (a + b)[j] == b[j - |a|];
      } else {
        assert (a + b)[i] == a[i] && a[i] in a;
        assert (a + b)[j] == b[j - |a|] && b[j - |a|] in b;
      }
    }
  }

  lemma PairsOfAppend(a: seq<Cohort>, b: seq<Cohort>)
    ensures PairsOf(a + b) == PairsOf(a) + PairsOf(b)
  {
    var l, r := PairsOf(a + b), PairsOf(a) + PairsOf(b);
    assert |l| == |r|;
    forall i | 0 <= i < |l| ensures l[i] == r[i] {
      if i < |a| { assert (a + b)[i] == a[i]; } else { assert (a + b)[i] == b[i - |a|]; }
    }
  }

  /** The (identifier, date key) pairs whose cohort is not empty. */
  function NonEmptyPairs(kind: EntityKind, rows: seq<Row>, ids: seq<string>, keys: seq<string>): set<(string, string)> {
    set i, k | i in ids && k in keys && Matching(kind, rows, i, k) != [] :: (i, k)
  }

  /** One output per non-empty cohort: the count before sorting is the number of non-empty pairs. */
  lemma CohortCount(kind: EntityKind, rows: seq<Row>, ids: seq<string>, keys: seq<string>)
    requires NoDuplicates(ids) && NoDuplicates(keys)
    ensures |CohortsOf(kind, rows, ids, keys)| == |NonEmptyPairs(kind, rows, ids, keys)|
  {
    var cs := CohortsOf(kind, rows, ids, keys);
    var ps := PairsOf(cs);
    CohortsSound(kind, rows, ids, keys);
    CohortsComplete(kind, rows, ids, keys);
    CohortsDistinct(kind, rows, ids, keys);
    forall p | p in ps ensures p in NonEmptyPairs(kind, rows, ids, keys) {
      var j :| 0 <= j < |ps| && ps[j] == p;
      assert cs[j] in cs;
    }
    assert ElementSet(ps) == NonEmptyPairs(kind, rows, ids, keys);
    DistinctCardinality(ps);
  }

  function ElementSet<T>(s: seq<T>): set<T> {
    set x | x in s
  }

  lemma {:induction false} DistinctCardinality<T>(s: seq<T>)
    requires NoDuplicates(s)
    ensures |ElementSet(s)| == |s|
  {
    if s != [] {
      var tail := s[1..];
      NoDuplicatesTail(s);
      DistinctCardinality(tail);
      assert ElementSet(s) == ElementSet(tail) + {s[0]};
    }
  }
}

=== FILE: dates.dfy ===
/** Calendar dates: `datetime.strptime(text, "%d/%m/%Y")` and `datetime.replace(year=...)`. */
module Dates {
  import opened Wrappers
  import opened Errors

  /** A date as a `datetime` holds it after parsing (the time of day is always midnight). */
  datatype Date = Date(day: int, month: int, year: int)

  /** `datetime.MINYEAR` and `datetime.MAXYEAR`. */
  const MinYear := 1
  const MaxYear := 9999

  predicate IsLeapYear(year: int) {
    year % 4 == 0 && (year % 100 != 0 || year % 400 == 0)
  }

  function DaysInMonth(month: int, year: int): (n: int)
    requires 1 <= month <= 12
    ensures 28 <= n <= 31
    ensures n == 29 <==> month == 2 && IsLeapYear(year)
  {
    if month == 2 then (if IsLeapYear(year) then 29 else 28)
    else if month == 4 || month == 6 || month == 9 || month == 11 then 30
    else 31
  }

  /** The dates `datetime` can represent. */
  predicate ValidDate(d: Date) {
    && MinYear <= d.year <= MaxYear
    && 1 <= d.month <= 12
    && 1 <= d.day <= DaysInMonth(d.month, d.year)
  }

  /** Chronological order, as `datetime.__lt__` compares. */
  predicate Earlier(a: Date, b: Date) {
    || a.year < b.year
    || (a.year == b.year && a.month < b.month)
    || (a.year == b.year && a.month == b.month && a.day < b.day)
  }

  // ---------------------------------------------------------------- parsing

  predicate IsDigit(c: char) {
    '0' <= c <= '9'
  }

  predicate IsNonZeroDigit(c: char) {
    '1' <= c <= '9'
  }

  function DigitValue(c: char): (v: int)
    requires IsDigit(c)
    ensures 0 <= v <= 9
  {
    c as int - '0' as int
  }

  function DigitChar(v: int): (c: char)
    requires 0 <= v <= 9
    ensures IsDigit(c) && DigitValue(c) == v
  {
    (v + '0' as int) as char
  }

  /** The `%d` directive, whose pattern is `3[01]|[12]\d|0[1-9]|[1-9]| [1-9]`.
      Returns the day and the number of characters it spans. Because a `/`
      must follow, at most one alternative can lead to a match: a two-digit
      alternative when the second character is a digit, otherwise a lone
      non-zero digit or a space-padded one. */
  function DayField(s: string): (r: Option<(int, nat)>)
    ensures r.Some? ==> 1 <= r.value.1 <= 2 && r.value.1 <= |s| && 1 <= r.value.0 <= 31
  {
    if |s| >= 2 && s[0] == ' ' && IsNonZeroDigit(s[1]) then Some((DigitValue(s[1]), 2))
    else if |s| >= 2 && IsDigit(s[0]) && IsDigit(s[1]) then
      var v := 10 * DigitValue(s[0]) + DigitValue(s[1]);
      if 1 <= v <= 31 then Some((v, 2)) else None
    else if |s| >= 1 && IsNonZeroDigit(s[0]) then Some((DigitValue(s[0]), 1))
    else None
  }

  /** The `%m` directive, whose pattern is `1[0-2]|0[1-9]|[1-9]`; as for the day, only one alternative can be followed by `/`. */
  function MonthField(s: string): (r: Option<(int, nat)>)
    ensures r.Some? ==> 1 <= r.value.1 <= 2 && r.value.1 <= |s| && 1 <= r.value.0 <= 12
  {
    if |s| >= 2 && IsDigit(s[0]) && IsDigit(s[1]) then
      var v := 10 * DigitValue(s[0]) + DigitValue(s[1]);
      if 1 <= v <= 12 then Some((v, 2)) else None
    else if |s| >= 1 && IsNonZeroDigit(s[0]) then Some((DigitValue(s[0]), 1))
    else None
  }

  /** The `%Y` directive (`\d\d\d\d`) followed by the end of the text. */
  function YearField(s: string): (r: Option<int>)
    ensures r.Some? ==> 0 <= r.value <= 9999
  {
    if |s| == 4 && IsDigit(s[0]) && IsDigit(s[1]) && IsDigit(s[2]) && IsDigit(s[3]) then
      Some(1000 * DigitValue(s[0]) + 100 * DigitValue(s[1]) + 10 * DigitValue(s[2]) + DigitValue(s[3]))
    else None
  }

  /** `datetime.strptime(text, "%d/%m/%Y")`: the whole text must match, and
      the day, month and year must name a date `datetime` can hold. */
  function ParseDate(text: string): (r: Outcome<Date>)
    ensures r.Ok? ==> ValidDate(r.value)
    ensures r.Err? ==> r.error == MalformedDate(text)
  {
    match DayField(text)
    case None => Err(MalformedDate(text))
    case Some((day, w1)) =>
      if |text| == w1 || text[w1] != '/' then Err(MalformedDate(text))
      else
        var rest := text[w1 + 1..];
        match MonthField(rest)
        case None => Err(MalformedDate(text))
        case Some((month, w2)) =>
          if |rest| == w2 || rest[w2] != '/' then Err(MalformedDate(text))
          else
            match YearField(rest[w2 + 1..])
            case None => Err(MalformedDate(text))
            case Some(year) =>
              var d := Date(day, month, year);
              if ValidDate(d) then Ok(d) else Err(MalformedDate(text))
  }

  // ---------------------------------------------------------------- rendering

  function TwoDigits(v: int): (s: string)
    requires 0 <= v <= 99
    ensures |s| == 2 && IsDigit(s[0]) && IsDigit(s[1])
    ensures 10 * DigitValue(s[0]) + DigitValue(s[1]) == v
  {
    [DigitChar(v / 10), DigitChar(v % 10)]
  }

  function FourDigits(v: int): (s: string)
    requires 0 <= v <= 9999
    ensures |s| == 4 && IsDigit(s[0]) && IsDigit(s[1]) && IsDigit(s[2]) && IsDigit(s[3])
    ensures 1000 * DigitValue(s[0]) + 100 * DigitValue(s[1]) + 10 * DigitValue(s[2]) + DigitValue(s[3]) == v
  {
    var high, low := TwoDigits(v / 100), TwoDigits(v % 100);
    assert v == 100 * (v / 100) + v % 100;
    high + low
  }

  /** The canonical `DD/MM/YYYY` text of a date, the form the input files use. */
  function FormatDate(d: Date): (s: string)
    requires ValidDate(d)
    ensures |s| == 10 && s[2] == '/' && s[5] == '/'
  {
    TwoDigits(d.day) + "/" + TwoDigits(d.month) + "/" + FourDigits(d.year)
  }

  /** Parsing the canonical text of a date gives the date back. */
  lemma ParseFormatRoundTrip(d: Date)
    requires ValidDate(d)
    ensures ParseDate(FormatDate(d)) == Ok(d)
  {
    var s := FormatDate(d);
    var dd, mm, yyyy := TwoDigits(d.day), TwoDigits(d.month), FourDigits(d.year);
    assert s == dd + "/" + mm + "/" + yyyy;
    assert s[..2] == dd;
    assert DayField(s) == Some((d.day, 2));
    var rest := s[3..];
    assert rest == mm + "/" + yyyy;
    assert MonthField(rest) == Some((d.month, 2));
    assert rest[3..] == yyyy;
    assert YearField(rest[3..]) == Some(d.year);
  }

  /** On zero-padded `DD/MM/YYYY` text, parsing succeeds exactly when the
      fields name a real date: 31/04, 29/02 of a common year, day 00,
      month 13 and year 0000 are all rejected. */
  lemma ParseCanonical(day: int, month: int, year: int)
    requires 0 <= day <= 99 && 0 <= month <= 99 && 0 <= year <= 9999
    ensures var text := TwoDigits(day) + "/" + TwoDigits(month) + "/" + FourDigits(year);
            ParseDate(text) == if ValidDate(Date(day, month, year)) then Ok(Date(day, month, year)) else Err(MalformedDate(text))
  {
    var dd, mm, yyyy := TwoDigits(day), TwoDigits(month), FourDigits(year);
    var s := dd + "/" + mm + "/" + yyyy;
    assert s[0] == dd[0] && s[1] == dd[1] && s[2] == '/';
    if 1 <= day <= 31 {
      assert DayField(s) == Some((day, 2));
      var rest := s[3..];
      assert rest == mm + "/" + yyyy;
      assert rest[0] == mm[0] && rest[1] == mm[1] && rest[2] == '/';
      if 1 <= month <= 12 {
        assert MonthField(rest) == Some((month, 2));
        assert rest[3..] == yyyy;
        assert YearField(rest[3..]) == Some(year);
      } else {
        assert MonthField(rest) == None;
      }
    } else {
      assert DayField(s) == None;
    }
  }

  /** A text in another layout is rejected: the day field is not followed by `/`. */
  lemma IsoTextRejected()
    ensures ParseDate("2021-07-25") == Err(MalformedDate("2021-07-25"))
  {
    var text := "2021-07-25";
    assert DigitValue(text[0]) == 2 && DigitValue(text[1]) == 0;
    assert DayField(text) == Some((20, 2));
    assert text[2] != '/';
  }

  /** A day the month does not have is rejected. */
  lemma ThirtyFirstOfApril()
    ensures ParseDate("31/04/2021") == Err(MalformedDate("31/04/2021"))
  {
    assert TwoDigits(31) == "31" && TwoDigits(4) == "04" && FourDigits(2021) == "2021";
    assert TwoDigits(31) + "/" + TwoDigits(4) + "/" + FourDigits(2021) == "31/04/2021";
    assert DaysInMonth(4, 2021) == 30;
    assert !ValidDate(Date(31, 4, 2021));
    ParseCanonical(31, 4, 2021);
  }

  /** Two canonical texts share a date key exactly when their dates share day and month. */
  lemma DateKeyIsDayAndMonth(a: Date, b: Date)
    requires ValidDate(a) && ValidDate(b)
    ensures FormatDate(a)[..5] == FormatDate(b)[..5] <==> a.day == b.day && a.month == b.month
  {
    var sa, sb := FormatDate(a), FormatDate(b);
    assert sa[..5] == TwoDigits(a.day) + "/" + TwoDigits(a.month);
    assert sb[..5] == TwoDigits(b.day) + "/" + TwoDigits(b.month);
    if sa[..5] == sb[..5] {
      assert sa[0] == sb[0] && sa[1] == sb[1] && sa[3] == sb[3] && sa[4] == sb[4];
    }
  }

  // ---------------------------------------------------------------- year shift

  /** `d.replace(year=d.year + delta)`: same day and month in another year,
      raising `ValueError` when that date does not exist. */
  function ShiftYear(d: Date, delta: int): (r: Outcome<Date>)
    ensures r.Ok? ==> ValidDate(r.value)
    ensures r.Ok? ==> r.value.day == d.day && r.value.month == d.month && r.value.year == d.year + delta
    ensures r.Err? ==> r.error == DateOutOfRange(d.day, d.month, d.year + delta)
  {
    var shifted := Date(d.day, d.month, d.year + delta);
    if ValidDate(shifted) then Ok(shifted) else Err(DateOutOfRange(d.day, d.month, d.year + delta))
  }

  /** Shifting a valid date fails only past the year range or on 29 February of a leap year landing in a common year. */
  lemma ShiftYearFailure(d: Date, delta: int)
    requires ValidDate(d)
    ensures ShiftYear(d, delta).Err? <==>
              || d.year + delta < MinYear || d.year + delta > MaxYear
              || (d.day == 29 && d.month == 2 && !IsLeapYear(d.year + delta))
  {
  }

  /** Shifting forward and back again returns the original date. */
  lemma ShiftYearInverse(d: Date, delta: int)
    requires ValidDate(d)
    requires ShiftYear(d, delta).Ok?
    ensures ShiftYear(ShiftYear(d, delta).value, -delta) == Ok(d)
  {
  }

  /** A successful forward shift moves the date strictly later; a backward one strictly earlier. */
  lemma ShiftYearOrder(d: Date, delta: int)
    requires ShiftYear(d, delta).Ok?
    ensures delta > 0 ==> Earlier(d, ShiftYear(d, delta).value)
    ensures delta < 0 ==> Earlier(ShiftYear(d, delta).value, d)
  {
  }
}

=== FILE: decimals.dfy ===
/** Metric cells as numbers: the decimal subset of Python's `float(text)`, and `round(x, 2)`. */
module Decimals {
  import opened Wrappers
  import opened Errors
  import opened Dates

  predicate AllDigits(s: string) {
    forall i :: 0 <= i < |s| ==> IsDigit(s[i])
  }

  /** The value of a string of decimal digits (zero for the empty string). */
  function DigitsValue(s: string): (v: nat)
    requires AllDigits(s)
  {
    if s == [] then 0 else 10 * DigitsValue(s[..|s| - 1]) + DigitValue(s[|s| - 1])
  }

  function Pow10(n: nat): (p: nat)
    ensures p >= 1
  {
    if n == 0 then 1 else 10 * Pow10(n - 1)
  }

  /** The index of the first `.` in `s`, or `|s|` when there is none. */
  function DotIndex(s: string): (i: nat)
    ensures i <= |s|
    ensures i < |s| ==> s[i] == '.'
    ensures forall j :: 0 <= j < i ==> s[j] != '.'
  {
    if s == [] then 0
    else if s[0] == '.' then 0
    else 1 + DotIndex(s[1..])
  }

  /** The value of the digits `whole`, a point, and the digits `fraction`. */
  function Magnitude(whole: string, fraction: string): real
    requires AllDigits(whole) && AllDigits(fraction)
  {
    DigitsValue(whole) as real + DigitsValue(fraction) as real / Pow10(|fraction|) as real
  }

  /** Digits with at most one `.`, and at least one digit in all. */
  function ParseUnsigned(body: string): (r: Option<real>)
    ensures r.Some? ==> |body| > 0
  {
    var dot := DotIndex(body);
    var whole := body[..dot];
    var fraction := if dot < |body| then body[dot + 1..] else "";
    if AllDigits(whole) && AllDigits(fraction) && |whole| + |fraction| > 0 then Some(Magnitude(whole, fraction))
    else None
  }

  /** `float(text)` on decimal literals: an optional sign before an unsigned decimal. */
  function ParseFloat(text: string): (r: Outcome<real>)
    ensures r.Err? ==> r.error == MalformedNumber(text)
    ensures r.Ok? ==> |text| > 0
  {
    var signed := |text| > 0 && (text[0] == '-' || text[0] == '+');
    match ParseUnsigned(if signed then text[1..] else text)
    case None => Err(MalformedNumber(text))
    case Some(magnitude) => Ok(if signed && text[0] == '-' then -magnitude else magnitude)
  }

  /** The decimal text of a natural number, as a units-sold cell holds it. */
  function NatText(n: nat): (s: string)
    ensures |s| > 0 && AllDigits(s)
    decreases n
  {
    (if n < 10 then "" else NatText(n / 10)) + [DigitChar(n % 10)]
  }

  lemma {:induction false} NatTextValue(n: nat)
    ensures DigitsValue(NatText(n)) == n
    decreases n
  {
    var s := NatText(n);
    var init := if n < 10 then "" else NatText(n / 10);
    assert s == init + [DigitChar(n % 10)];
    assert s[..|s| - 1] == init;
    assert DigitsValue(s) == 10 * DigitsValue(init) + n % 10;
    if n >= 10 {
      NatTextValue(n / 10);
      assert DigitsValue(init) == n / 10;
    }
    assert n == 10 * (n / 10) + n % 10;
  }

  /** Unsigned digits without a point are read as a whole number. */
  lemma ParseDigits(s: string)
    requires |s| > 0 && AllDigits(s)
    ensures ParseFloat(s) == Ok(DigitsValue(s) as real)
  {
    assert IsDigit(s[0]);
    DigitsHaveNoDot(s);
    assert s[..DotIndex(s)] == s;
    assert Magnitude(s, "") == DigitsValue(s) as real by {
      assert DigitsValue("") == 0 && Pow10(0) == 1;
    }
    assert ParseUnsigned(s) == Some(DigitsValue(s) as real);
  }

  /** Parsing the text of a natural number gives the number back. */
  lemma ParseNatText(n: nat)
    ensures ParseFloat(NatText(n)) == Ok(n as real)
  {
    NatTextValue(n);
    ParseDigits(NatText(n));
  }

  lemma {:induction false} DigitsHaveNoDot(s: string)
    requires AllDigits(s)
    ensures DotIndex(s) == |s|
  {
    if s != [] {
      assert AllDigits(s[1..]) by {
        forall i | 0 <= i < |s[1..]| ensures IsDigit(s[1..][i]) { assert s[1..][i] == s[i + 1]; }
      }
      DigitsHaveNoDot(s[1..]);
    }
  }

  /** The first `.` of digits, a point and digits is the one between them. */
  lemma {:induction false} DotAfterDigits(whole: string, fraction: string)
    requires AllDigits(whole)
    ensures DotIndex(whole + "." + fraction) == |whole|
    decreases |whole|
  {
    var s := whole + "." + fraction;
    if whole == [] {
      assert s[0] == '.';
    } else {
      assert IsDigit(whole[0]) && s[0] == whole[0];
      assert s[1..] == whole[1..] + "." + fraction;
      assert AllDigits(whole[1..]) by {
        forall i | 0 <= i < |whole[1..]| ensures IsDigit(whole[1..][i]) { assert whole[1..][i] == whole[i + 1]; }
      }
      DotAfterDigits(whole[1..], fraction);
    }
  }

  /** Text with a decimal point is read as its whole part plus its fraction,
      negated under a leading `-`; either part may be empty, but not both. */
  lemma ParseDecimal(whole: string, fraction: string)
    requires AllDigits(whole) && AllDigits(fraction) && |whole| + |fraction| > 0
    ensures ParseFloat(whole + "." + fraction) == Ok(Magnitude(whole, fraction))
    ensures ParseFloat("-" + whole + "." + fraction) == Ok(-Magnitude(whole, fraction))
  {
    var body := whole + "." + fraction;
    DotAfterDigits(whole, fraction);
    assert body[..|whole|] == whole && body[|whole| + 1..] == fraction;
    assert ParseUnsigned(body) == Some(Magnitude(whole, fraction));
    assert body[0] != '-' && body[0] != '+' by {
      if whole != [] { assert body[0] == whole[0] && IsDigit(whole[0]); } else { assert body[0] == '.'; }
    }
    var negative := "-" + whole + "." + fraction;
    assert negative[0] == '-' && negative[1..] == body;
  }

  /** The two-decimal text of an amount, as a sales cell holds it, parses
      back to that amount: the round trip for every value with two decimals. */
  lemma ParseCents(units: nat, cents: nat)
    requires cents < 100
    ensures ParseFloat(NatText(units) + "." + TwoDigits(cents)) == Ok((100 * units + cents) as real / 100.0)
    ensures ParseFloat("-" + NatText(units) + "." + TwoDigits(cents)) == Ok(-((100 * units + cents) as real / 100.0))
  {
    var fraction := TwoDigits(cents);
    assert AllDigits(fraction);
    assert DigitsValue(fraction[..1]) == DigitValue(fraction[0]) by {
      assert fraction[..1][..0] == "";
    }
    assert DigitsValue(fraction) == cents;
    NatTextValue(units);
    assert Pow10(|fraction|) == 100;
    ParseDecimal(NatText(units), fraction);
  }

  /** An empty cell is not a number: `float('')` raises. */
  lemma EmptyIsMalformed()
    ensures ParseFloat("") == Err(MalformedNumber(""))
  {
  }

  // ---------------------------------------------------------------- rounding

  /** The integer nearest to `y`, ties to the even neighbour. */
  function RoundHalfEven(y: real): (n: int)
    ensures -0.5 <= n as real - y <= 0.5
    ensures n as real - y == 0.5 || y - n as real == 0.5 ==> n % 2 == 0
  {
    var f := y.Floor;
    var fraction := y - f as real;
    if fraction < 0.5 then f
    else if fraction > 0.5 then f + 1
    else if f % 2 == 0 then f
    else f + 1
  }

  /** `round(x, 2)`: the nearest multiple of 0.01, ties to even, computed on the exact value. */
  function Round2(x: real): (r: real)
    ensures -0.005 <= r - x <= 0.005
    ensures (r * 100.0).Floor as real == r * 100.0
    ensures r - x == 0.005 || x - r == 0.005 ==> (r * 100.0).Floor % 2 == 0
  {
    RoundHalfEven(x * 100.0) as real / 100.0
  }

  /** Rounding to two decimals never flips the sign of its argument. */
  lemma Round2Sign(x: real)
    ensures x >= 0.0 ==> Round2(x) >= 0.0
    ensures x <= 0.0 ==> Round2(x) <= 0.0
  {
  }

  /** A value that already has at most two decimals is left unchanged. */
  lemma Round2Exact(k: int)
    ensures Round2(k as real / 100.0) == k as real / 100.0
  {
    var y := k as real / 100.0 * 100.0;
    assert y == k as real;
    assert y.Floor == k;
  }

  function Distance(x: real, y: real): (d: real)
    ensures d >= 0.0
    ensures d == x - y || d == y - x
  {
    if x >= y then x - y else y - x
  }

  /** No multiple of 0.01 is closer to `x` than its rounding. */
  lemma Round2Nearest(x: real, k: int)
    ensures Distance(Round2(x), x) <= Distance(k as real / 100.0, x)
  {
    var y := x * 100.0;
    var n := RoundHalfEven(y);
    assert Round2(x) == n as real / 100.0;
    assert Distance(Round2(x), x) == Distance(n as real, y) / 100.0;
    assert Distance(k as real / 100.0, x) == Distance(k as real, y) / 100.0;
    assert Distance(n as real, y) <= 0.5;
    if k < n {
      assert k as real <= n as real - 1.0;
      assert Distance(k as real, y) >= 0.5;
    } else if k > n {
      assert k as real >= n as real + 1.0;
      assert Distance(k as real, y) >= 0.5;
    }
  }
}

=== FILE: entities.dfy ===
/** Entity kinds: what distinguishes the product reporter from the brand
    reporter (identifier column, descriptive fields copied into each
    comparison record, and the name those records are sorted by). */
module Entities {
  import opened Wrappers
  import opened Errors
  import opened Rows

  /** One descriptive field: the output `key` takes the value of the row's `column`. */
  datatype Field = Field(key: string, column: string)

  datatype EntityKind = EntityKind(idColumn: string, fields: seq<Field>, nameKey: string)

  /** `ProductReporter`: identified by barcode, sorted by product name. */
  const Product := EntityKind("barcode_no",
                              [Field("barcode_no", "barcode_no"), Field("product_name", "product_name")],
                              "product_name")

  /** `BrandReporter`: identified by brand id; the `brand` column is published as `brand_name`. */
  const Brand := EntityKind("brand_id",
                            [Field("brand_id", "brand_id"), Field("brand_name", "brand")],
                            "brand_name")

  function OutputKeys(fields: seq<Field>): set<string> {
    set i | 0 <= i < |fields| :: fields[i].key
  }

  /** A kind whose sort name is one of the fields its enrichment produces. */
  predicate ValidKind(kind: EntityKind) {
    kind.nameKey in OutputKeys(kind.fields)
  }

  lemma ReportersAreValid()
    ensures ValidKind(Product) && ValidKind(Brand)
  {
    assert Product.fields[1].key == Product.nameKey;
    assert Brand.fields[1].key == Brand.nameKey;
  }

  /** The dict display of a `_data_processing_hook` override: fields are read
      left to right, the first absent column raises `KeyError`, and a key
      written twice keeps its last value. */
  function CopyFields(fields: seq<Field>, row: Row): (r: Outcome<map<string, string>>)
    ensures r.Ok? <==> forall i :: 0 <= i < |fields| ==> fields[i].column in row
    ensures r.Ok? ==> r.value.Keys == OutputKeys(fields)
  {
    if fields == [] then Ok(map[])
    else
      var init :- CopyFields(Front(fields), row);
      var last := fields[|fields| - 1];
      if last.column in row then
        Ok(init[last.key := row[last.column]])
      else
        Err(MissingColumn(last.column))
  }

  function Front(fields: seq<Field>): (f: seq<Field>)
    requires |fields| > 0
    ensures |f| == |fields| - 1
    ensures forall i :: 0 <= i < |f| ==> f[i] == fields[i]
    ensures OutputKeys(fields) == OutputKeys(f) + {fields[|fields| - 1].key}
  {
    var f := fields[..|fields| - 1];
    assert forall i :: 0 <= i < |f| ==> f[i] == fields[i];
    f
  }

  /** Each output key holds the cell of the column written last under that key. */
  lemma {:induction false} CopyFieldsValues(fields: seq<Field>, row: Row, i: int)
    requires CopyFields(fields, row).Ok?
    requires 0 <= i < |fields|
    requires forall j :: i < j < |fields| ==> fields[j].key != fields[i].key
    ensures CopyFields(fields, row).value[fields[i].key] == row[fields[i].column]
    decreases |fields|
  {
    var front, last := Front(fields), fields[|fields| - 1];
    assert CopyFields(front, row).Ok? && last.column in row;
    assert CopyFields(fields, row).value == CopyFields(front, row).value[last.key := row[last.column]];
    if i < |fields| - 1 {
      assert front[i] == fields[i] && last.key != fields[i].key;
      CopyFieldsValues(front, row, i);
    }
  }

  /** The error raised names the first absent column. */
  lemma {:induction false} CopyFieldsFirstMissing(fields: seq<Field>, row: Row)
    requires CopyFields(fields, row).Err?
    ensures exists i :: && 0 <= i < |fields| && fields[i].column !in row
                        && (forall j :: 0 <= j < i ==> fields[j].column in row)
                        && CopyFields(fields, row).error == MissingColumn(fields[i].column)
    decreases |fields|
  {
    var front := Front(fields);
    if CopyFields(front, row).Err? {
      CopyFieldsFirstMissing(front, row);
      var i :| && 0 <= i < |front| && front[i].column !in row
               && (forall j :: 0 <= j < i ==> front[j].column in row)
               && CopyFields(front, row).error == MissingColumn(front[i].column);
      assert fields[i] == front[i];
    } else {
      assert fields[|fields| - 1].column !in row;
    }
  }

  /** `_data_processing_hook(row)`: the descriptive fields of a comparison record. */
  function Enrich(kind: EntityKind, row: Row): (r: Outcome<map<string, string>>)
    ensures r.Ok? <==> forall i :: 0 <= i < |kind.fields| ==> kind.fields[i].column in row
    ensures r.Ok? ==> r.value.Keys == OutputKeys(kind.fields)
    ensures r.Ok? && ValidKind(kind) ==> kind.nameKey in r.value
  {
    CopyFields(kind.fields, row)
  }

  /** A two-field hook, unfolded. */
  lemma CopyTwoFields(f0: Field, f1: Field, row: Row)
    ensures f0.column !in row ==> CopyFields([f0, f1], row) == Err(MissingColumn(f0.column))
    ensures f0.column in row && f1.column !in row ==> CopyFields([f0, f1], row) == Err(MissingColumn(f1.column))
    ensures f0.column in row && f1.column in row ==>
              CopyFields([f0, f1], row) == Ok(map[f0.key := row[f0.column], f1.key := row[f1.column]])
  {
    assert Front([f0, f1]) == [f0];
    assert Front([f0]) == [];
    assert CopyFields([], row) == Ok(map[]);
  }

  /** `ProductReporter._data_processing_hook`. */
  lemma ProductEnrichment(row: Row)
    ensures "barcode_no" !in row ==> Enrich(Product, row) == Err(MissingColumn("barcode_no"))
    ensures "barcode_no" in row && "product_name" !in row ==> Enrich(Product, row) == Err(MissingColumn("product_name"))
    ensures "barcode_no" in row && "product_name" in row ==>
              Enrich(Product, row) == Ok(map["barcode_no" := row["barcode_no"], "product_name" := row["product_name"]])
  {
    CopyTwoFields(Field("barcode_no", "barcode_no"), Field("product_name", "product_name"), row);
  }

  /** `BrandReporter._data_processing_hook`: `brand` is copied under the key `brand_name`. */
  lemma BrandEnrichment(row: Row)
    ensures "brand_id" !in row ==> Enrich(Brand, row) == Err(MissingColumn("brand_id"))
    ensures "brand_id" in row && "brand" !in row ==> Enrich(Brand, row) == Err(MissingColumn("brand"))
    ensures "brand_id" in row && "brand" in row ==>
              Enrich(Brand, row) == Ok(map["brand_id" := row["brand_id"], "brand_name" := row["brand"]])
  {
    CopyTwoFields(Field("brand_id", "brand_id"), Field("brand_name", "brand"), row);
  }
}

=== FILE: growth.dfy ===
/** The growth formula and the per-metric null pre-check of the two-period flow. */
module Growth {
  import opened Wrappers
  import opened Errors
  import opened Rows
  import opened Decimals

  /** `round(100 * (current - previous) / previous, 2)`: no clamping, and a
      zero previous value raises `ZeroDivisionError`. */
  function CalculateGrowth(previous: real, current: real): (r: Outcome<real>)
    ensures r.Err? <==> previous == 0.0
    ensures r.Err? ==> r.error == DivisionByZero
    ensures r.Ok? ==> -0.005 <= r.value - 100.0 * (current - previous) / previous <= 0.005
    ensures r.Ok? ==> (r.value * 100.0).Floor as real == r.value * 100.0
    ensures r.Ok? ==> var q := 100.0 * (current - previous) / previous;
              r.value - q == 0.005 || q - r.value == 0.005 ==> (r.value * 100.0).Floor % 2 == 0
  {
    if previous == 0.0 then Err(DivisionByZero)
    else Ok(Round2(100.0 * (current - previous) / previous))
  }

  /** The growth is the two-decimal figure nearest the exact percentage. */
  lemma GrowthNearest(previous: real, current: real, k: int)
    requires previous != 0.0
    ensures var q := 100.0 * (current - previous) / previous;
            Distance(CalculateGrowth(previous, current).value, q) <= Distance(k as real / 100.0, q)
  {
    Round2Nearest(100.0 * (current - previous) / previous, k);
  }

  /** For a positive previous value the growth has the sign of the change;
      for a negative one (a refund-heavy period) the sign is reversed. */
  lemma GrowthSign(previous: real, current: real)
    requires previous != 0.0
    ensures previous > 0.0 && current > previous ==> CalculateGrowth(previous, current).value >= 0.0
    ensures previous > 0.0 && current < previous ==> CalculateGrowth(previous, current).value <= 0.0
    ensures previous < 0.0 && current > previous ==> CalculateGrowth(previous, current).value <= 0.0
    ensures previous < 0.0 && current < previous ==> CalculateGrowth(previous, current).value >= 0.0
    ensures current == previous ==> CalculateGrowth(previous, current).value == 0.0
  {
    var q := 100.0 * (current - previous) / previous;
    Round2Sign(q);
    if previous > 0.0 && current > previous {
      assert q > 0.0;
    } else if previous > 0.0 && current < previous {
      assert q < 0.0;
    } else if previous < 0.0 && current > previous {
      assert q < 0.0;
    } else if previous < 0.0 && current < previous {
      assert q > 0.0;
    } else if current == previous {
      assert q == 0.0;
    }
  }

  /** Every two-decimal growth figure is reached, from below -100 to above
      100: the current value that produces it is recovered from the previous
      value and the growth. */
  lemma GrowthUnclamped(previous: real, k: int)
    requires previous != 0.0
    ensures var r := CalculateGrowth(previous, previous + previous * (k as real / 100.0) / 100.0);
              r.Ok? && r.value == k as real / 100.0
  {
    var g := k as real / 100.0;
    var current := previous + previous * g / 100.0;
    assert current - previous == previous * g / 100.0;
    assert 100.0 * (current - previous) == previous * g;
    var q := 100.0 * (current - previous) / previous;
    assert q == g;
    Round2Exact(k);
    assert Round2(q) == g;
    assert CalculateGrowth(previous, current) == Ok(Round2(q));
    assert CalculateGrowth(previous, current).value == g;
    assert current == previous + previous * (k as real / 100.0) / 100.0;
  }

  /** Growth of one metric column between the previous-period row `first`
      and the current-period row `second`: null when both cells are empty
      strings, otherwise both cells go through `float` and the formula.
      Cells are read in the order Python evaluates them, so the error
      raised is the one Python raises first. */
  function MetricGrowth(first: Row, second: Row, column: string): (r: Outcome<Option<real>>)
    ensures column !in first ==> r == Err(MissingColumn(column))
    ensures column in first && !IsBlank(first[column]) && ParseFloat(first[column]).Err? ==>
              r == Err(MalformedNumber(first[column]))
    ensures column in first && column !in second && (IsBlank(first[column]) || ParseFloat(first[column]).Ok?) ==>
              r == Err(MissingColumn(column))
    ensures r == Ok(None) <==>
              column in first && column in second && IsBlank(first[column]) && IsBlank(second[column])
    ensures r.Ok? && r.value.Some? ==>
              && column in first && column in second
              && ParseFloat(first[column]).Ok? && ParseFloat(second[column]).Ok?
              && var p, c := ParseFloat(first[column]).value, ParseFloat(second[column]).value;
                 p != 0.0 && -0.005 <= r.value.value - 100.0 * (c - p) / p <= 0.005
                 && CalculateGrowth(p, c) == Ok(r.value.value)
    ensures column in first && column in second && !(IsBlank(first[column]) && IsBlank(second[column])) ==>
              && (ParseFloat(first[column]).Err? ==> r == Err(MalformedNumber(first[column])))
              && (ParseFloat(first[column]).Ok? && ParseFloat(second[column]).Err? ==>
                    r == Err(MalformedNumber(second[column])))
              && (ParseFloat(first[column]).Ok? && ParseFloat(second[column]).Ok? ==>
                    (r.Ok? <==> ParseFloat(first[column]).value != 0.0))
              && (ParseFloat(first[column]) == Ok(0.0) && ParseFloat(second[column]).Ok? ==>
                    r == Err(DivisionByZero))
  {
    var a :- Lookup(first, column);
    if IsBlank(a) then
      var b :- Lookup(second, column);
      if IsBlank(b) then Ok(None) else Computed(a, second, column)
    else Computed(a, second, column)
  }

  /** The `else` branch: the previous cell `a` is converted before the
      current cell is read, then both go through the formula. */
  function Computed(a: string, second: Row, column: string): (r: Outcome<Option<real>>)
    ensures r.Ok? ==> r.value.Some?
    ensures ParseFloat(a).Err? ==> r == Err(MalformedNumber(a))
    ensures ParseFloat(a).Ok? && column !in second ==> r == Err(MissingColumn(column))
    ensures ParseFloat(a).Ok? && column in second && ParseFloat(second[column]).Err? ==>
              r == Err(MalformedNumber(second[column]))
    ensures ParseFloat(a).Ok? && column in second && ParseFloat(second[column]).Ok? ==>
              var p, c := ParseFloat(a).value, ParseFloat(second[column]).value;
              && (r.Ok? <==> p != 0.0)
              && (r.Err? ==> r.error == DivisionByZero)
              && (r.Ok? ==> CalculateGrowth(p, c) == Ok(r.value.value))
  {
    var p :- ParseFloat(a);
    var b :- Lookup(second, column);
    var c :- ParseFloat(b);
    var g :- CalculateGrowth(p, c);
    Ok(Some(g))
  }

  /** `"0"` is truthy, so two zero cells are not reported as null: they
      reach the division and raise. */
  lemma ZeroCellsDivideByZero(first: Row, second: Row, column: string)
    requires column in first && column in second
    requires first[column] == "0" && second[column] == "0"
    ensures MetricGrowth(first, second, column) == Err(DivisionByZero)
  {
    assert ParseFloat("0") == Ok(0.0) by { ParseNatText(0); assert NatText(0) == "0"; }
  }

  /** Only the both-empty case is short-circuited: one empty cell beside a
      non-empty one goes through `float('')` and raises. */
  lemma OneEmptyCellIsMalformed(first: Row, second: Row, column: string)
    requires column in first && column in second
    requires IsBlank(first[column]) != IsBlank(second[column])
    requires ParseFloat(first[column]).Ok? || ParseFloat(second[column]).Ok?
    ensures MetricGrowth(first, second, column) == Err(MalformedNumber(""))
  {
    EmptyIsMalformed();
  }
}

=== FILE: ingest.dfy ===
/** `DataReporter._data_parser`: the bookkeeping done on already-tokenised CSV rows. */
module Ingest {
  import opened Wrappers
  import opened Errors
  import opened Rows
  import opened Entities

  /** A reporter after construction: its kind, every row in file order, the
      distinct identifiers and the distinct date keys. */
  datatype Reporter = Reporter(kind: EntityKind, records: seq<Row>, identifiers: set<string>, dateKeys: set<string>)

  /** The columns ingestion reads from every row. */
  predicate HasKeyColumns(kind: EntityKind, row: Row) {
    kind.idColumn in row && DateColumn in row
  }

  /** The distinct identifiers occurring in `rows`. */
  function IdentifiersOf(kind: EntityKind, rows: seq<Row>): set<string> {
    set i | 0 <= i < |rows| && kind.idColumn in rows[i] :: rows[i][kind.idColumn]
  }

  /** The distinct date keys occurring in `rows`. */
  function DateKeysOf(rows: seq<Row>): set<string> {
    set i | 0 <= i < |rows| && DateColumn in rows[i] :: DateKey(rows[i][DateColumn])
  }

  /** What a successful ingestion of `rows` produces. */
  predicate IngestedFrom(rep: Reporter, kind: EntityKind, rows: seq<Row>) {
    && rep.kind == kind
    && rep.records == rows
    && (forall i :: 0 <= i < |rows| ==> HasKeyColumns(kind, rows[i]))
    && rep.identifiers == IdentifiersOf(kind, rows)
    && rep.dateKeys == DateKeysOf(rows)
  }

  /** `_data_parser`. `header` is the reader's `fieldnames` (`None` for an
      empty file) and `rows` are the dictionaries it yields. */
  method ParseRecords(kind: EntityKind, header: Option<seq<string>>, rows: seq<Row>) returns (r: Outcome<Reporter>)
    ensures header.None? ==> r == Err(EmptySource)
    ensures r.Ok? <==> header.Some? && forall i :: 0 <= i < |rows| ==> HasKeyColumns(kind, rows[i])
    ensures r.Ok? ==> IngestedFrom(r.value, kind, rows)
    ensures header.Some? && r.Err? ==>
              exists i :: && 0 <= i < |rows| && !HasKeyColumns(kind, rows[i])
                          && (forall j :: 0 <= j < i ==> HasKeyColumns(kind, rows[j]))
                          && r.error == MissingColumn(if kind.idColumn in rows[i] then DateColumn else kind.idColumn)
  {
    if header.None? {
      return Err(EmptySource);
    }
    var records: seq<Row> := [];
    var identifiers: set<string> := {};
    var dateKeys: set<string> := {};
    var n := 0;
    while n < |rows|
      invariant 0 <= n <= |rows|
      invariant records == rows[..n]
      invariant forall i :: 0 <= i < n ==> HasKeyColumns(kind, rows[i])
      invariant identifiers == IdentifiersOf(kind, rows[..n])
      invariant dateKeys == DateKeysOf(rows[..n])
    {
      var row := rows[n];
      records := records + [row];
      if kind.idColumn !in row {
        return Err(MissingColumn(kind.idColumn));
      }
      identifiers := identifiers + {row[kind.idColumn]};
      if DateColumn !in row {
        return Err(MissingColumn(DateColumn));
      }
      dateKeys := dateKeys + {DateKey(row[DateColumn])};
      GrowSets(kind, rows, n);
      n := n + 1;
    }
    assert rows[..n] == rows;
    r := Ok(Reporter(kind, records, identifiers, dateKeys));
  }

  /** Extending the prefix by one row adds that row's identifier and date key. */
  lemma GrowSets(kind: EntityKind, rows: seq<Row>, n: nat)
    requires n < |rows| && HasKeyColumns(kind, rows[n])
    ensures IdentifiersOf(kind, rows[..n + 1]) == IdentifiersOf(kind, rows[..n]) + {rows[n][kind.idColumn]}
    ensures DateKeysOf(rows[..n + 1]) == DateKeysOf(rows[..n]) + {DateKey(rows[n][DateColumn])}
  {
    var a, b := rows[..n + 1], rows[..n];
    assert forall i :: 0 <= i < n ==> a[i] == b[i];
    assert a[n] == rows[n];
  }
}

=== FILE: ordering.dfy ===
/** The order of `itemgetter(name, "current_week_commencing_date")` keys:
    Python compares the tuples name first (strings by code point), then date. */
module Ordering {
  import opened Dates

  /** Python's `str.__lt__`: lexicographic by code point, a proper prefix first. */
  predicate StrLess(a: string, b: string)
    decreases |a|
  {
    if |b| == 0 then false
    else if |a| == 0 then true
    else if a[0] != b[0] then a[0] < b[0]
    else StrLess(a[1..], b[1..])
  }

  lemma {:induction false} StrLessIrreflexive(a: string)
    ensures !StrLess(a, a)
    decreases |a|
  {
    if |a| > 0 {
      StrLessIrreflexive(a[1..]);
    }
  }

  lemma {:induction false} StrLessTransitive(a: string, b: string, c: string)
    requires StrLess(a, b) && StrLess(b, c)
    ensures StrLess(a, c)
    decreases |a|
  {
    if |a| > 0 && a[0] == b[0] && b[0] == c[0] {
      StrLessTransitive(a[1..], b[1..], c[1..]);
    }
  }

  lemma {:induction false} StrLessTotal(a: string, b: string)
    ensures a == b || StrLess(a, b) || StrLess(b, a)
    decreases |a|
  {
    if |a| > 0 && |b| > 0 && a[0] == b[0] {
      StrLessTotal(a[1..], b[1..]);
      if a[1..] == b[1..] {
        assert a == [a[0]] + a[1..] && b == [b[0]] + b[1..];
      }
    }
  }

  lemma {:induction false} StrLessAsymmetric(a: string, b: string)
    requires StrLess(a, b)
    ensures !StrLess(b, a)
    decreases |a|
  {
    if |a| > 0 && a[0] == b[0] {
      StrLessAsymmetric(a[1..], b[1..]);
    }
  }

  /** A shared prefix does not decide Python's string order. */
  lemma {:induction false} StrLessCommonPrefix(p: string, a: string, b: string)
    ensures StrLess(p + a, p + b) == StrLess(a, b)
    decreases |p|
  {
    if |p| > 0 {
      assert (p + a)[0] == p[0] == (p + b)[0];
      assert (p + a)[1..] == p[1..] + a && (p + b)[1..] == p[1..] + b;
      assert StrLess(p + a, p + b) == StrLess((p + a)[1..], (p + b)[1..]);
      StrLessCommonPrefix(p[1..], a, b);
    } else {
      assert p + a == a && p + b == b;
    }
  }

  /** The sort key of a comparison record. */
  datatype SortKey = SortKey(name: string, date: Date)

  /** Tuple comparison: by name, then by date. */
  predicate KeyLess(x: SortKey, y: SortKey) {
    StrLess(x.name, y.name) || (x.name == y.name && Earlier(x.date, y.date))
  }

  /** `KeyLess` is a strict total order on keys. */
  lemma KeyLessIrreflexive(x: SortKey)
    ensures !KeyLess(x, x)
  {
    StrLessIrreflexive(x.name);
  }

  lemma KeyLessTransitive(x: SortKey, y: SortKey, z: SortKey)
    requires KeyLess(x, y) && KeyLess(y, z)
    ensures KeyLess(x, z)
  {
    if StrLess(x.name, y.name) && StrLess(y.name, z.name) {
      StrLessTransitive(x.name, y.name, z.name);
    }
  }

  lemma KeyLessTotal(x: SortKey, y: SortKey)
    ensures x == y || KeyLess(x, y) || KeyLess(y, x)
  {
    StrLessTotal(x.name, y.name);
  }

  lemma KeyLessAsymmetric(x: SortKey, y: SortKey)
    requires KeyLess(x, y)
    ensures !KeyLess(y, x)
  {
    if StrLess(x.name, y.name) {
      StrLessAsymmetric(x.name, y.name);
    } else {
      StrLessIrreflexive(x.name);
    }
  }
}

=== FILE: reconcile.dfy ===
/** `DataReporter._clean_data`: one cohort becomes one comparison record. */
module Reconciliation {
  import opened Wrappers
  import opened Errors
  import opened Rows
  import opened Dates
  import opened Growth
  import opened Entities

  /** The dictionary `_clean_data` returns. `descriptive` holds the keys the
      entity kind's hook adds (`barcode_no`/`product_name` or `brand_id`/`brand_name`). */
  datatype Comparison = Comparison(
    previousWeek: Date,
    currentWeek: Date,
    grossGrowth: Option<real>,
    unitGrowth: Option<real>,
    descriptive: map<string, string>)

  /** The growth reported for an entity seen only in the previous period: a total loss. */
  const LossGrowth := -100.0

  /** The variable the pairing loop leaves bound: the last row of `rows`
      whose period is (or, for `previous == false`, is not) the previous one. */
  function LastOfPeriod(rows: seq<Row>, previous: bool): (r: Option<Row>)
    ensures r.None? <==> forall i :: 0 <= i < |rows| ==> IsPrevious(rows[i]) != previous
    ensures r.Some? ==> exists i :: && 0 <= i < |rows| && rows[i] == r.value && IsPrevious(rows[i]) == previous
                                    && forall j :: i < j < |rows| ==> IsPrevious(rows[j]) != previous
  {
    if rows == [] then None
    else if IsPrevious(rows[|rows| - 1]) == previous then Some(rows[|rows| - 1])
    else
      var r := LastOfPeriod(rows[..|rows| - 1], previous);
      assert forall i :: 0 <= i < |rows| - 1 ==> rows[..|rows| - 1][i] == rows[i];
      r
  }

  /** On two rows the loop keeps the second row if it has the period, else the first if it has. */
  lemma LastOfPair(x: Row, y: Row, previous: bool)
    ensures LastOfPeriod([x, y], previous) ==
            if IsPrevious(y) == previous then Some(y) else if IsPrevious(x) == previous then Some(x) else None
  {
    assert [x, y][..1] == [x];
  }

  /** The one-period flow of `_clean_data`: a lone previous-period row is a
      total loss dated one year on; a lone current-period row has unknown
      growth and is compared with the same week a year earlier. */
  function ReconcileSingle(kind: EntityKind, row: Row): (r: Outcome<Comparison>)
    ensures DateColumn !in row ==> r == Err(MissingColumn(DateColumn))
    ensures DateColumn in row && ParseDate(row[DateColumn]).Err? ==> r == Err(MalformedDate(row[DateColumn]))
    ensures DateColumn in row && ParseDate(row[DateColumn]).Ok? && PeriodColumn !in row ==>
              r == Err(MissingColumn(PeriodColumn))
    ensures && DateColumn in row && ParseDate(row[DateColumn]).Ok? && PeriodColumn in row
            && ShiftYear(ParseDate(row[DateColumn]).value, if IsPrevious(row) then 1 else -1).Err? ==>
              r == Err(ShiftYear(ParseDate(row[DateColumn]).value, if IsPrevious(row) then 1 else -1).error)
    ensures && DateColumn in row && ParseDate(row[DateColumn]).Ok? && PeriodColumn in row
            && ShiftYear(ParseDate(row[DateColumn]).value, if IsPrevious(row) then 1 else -1).Ok?
            && Enrich(kind, row).Err? ==>
              r == Err(Enrich(kind, row).error)
    ensures r.Ok? ==> DateColumn in row && ParseDate(row[DateColumn]).Ok? && PeriodColumn in row
    ensures r.Ok? ==> ValidDate(r.value.previousWeek) && ValidDate(r.value.currentWeek)
    ensures r.Ok? && IsPrevious(row) ==>
              var d := ParseDate(row[DateColumn]).value;
              && r.value.previousWeek == d
              && r.value.currentWeek == Date(d.day, d.month, d.year + 1)
              && r.value.grossGrowth == Some(LossGrowth) && r.value.unitGrowth == Some(LossGrowth)
    ensures r.Ok? && !IsPrevious(row) ==>
              var d := ParseDate(row[DateColumn]).value;
              && r.value.currentWeek == d
              && r.value.previousWeek == Date(d.day, d.month, d.year - 1)
              && r.value.grossGrowth == None && r.value.unitGrowth == None
    ensures r.Ok? ==> Enrich(kind, row) == Ok(r.value.descriptive)
    ensures && DateColumn in row && ParseDate(row[DateColumn]).Ok? && PeriodColumn in row
            && ShiftYear(ParseDate(row[DateColumn]).value, if IsPrevious(row) then 1 else -1).Ok?
            && Enrich(kind, row).Ok?
            ==> r.Ok?
  {
    var text :- Lookup(row, DateColumn);
    var date :- ParseDate(text);
    var period :- Lookup(row, PeriodColumn);
    if period == PreviousPeriod then
      var current :- ShiftYear(date, 1);
      var fields :- Enrich(kind, row);
      Ok(Comparison(date, current, Some(LossGrowth), Some(LossGrowth), fields))
    else
      var previous :- ShiftYear(date, -1);
      var fields :- Enrich(kind, row);
      Ok(Comparison(previous, date, None, None, fields))
  }

  /** The two-period flow of `_clean_data`, on however many rows the cohort
      holds: the loop binds `first_period` to the last previous-period row
      and `second_period` to the last other row; reading an unbound one
      raises. */
  function ReconcileSeveral(kind: EntityKind, data: seq<Row>): (r: Outcome<Comparison>)
    ensures (exists i :: 0 <= i < |data| && PeriodColumn !in data[i]) ==> r == Err(MissingColumn(PeriodColumn))
    ensures (forall i :: 0 <= i < |data| ==> PeriodColumn in data[i]) && LastOfPeriod(data, true).None? ==>
              r == Err(UnboundPeriod("first_period"))
    ensures r.Ok? ==>
              && LastOfPeriod(data, true).Some? && LastOfPeriod(data, false).Some?
              && var first, second := LastOfPeriod(data, true).value, LastOfPeriod(data, false).value;
              && DateColumn in first && DateColumn in second
              && Ok(r.value.previousWeek) == ParseDate(first[DateColumn])
              && Ok(r.value.currentWeek) == ParseDate(second[DateColumn])
              && Ok(r.value.grossGrowth) == MetricGrowth(first, second, GrossSalesColumn)
              && Ok(r.value.unitGrowth) == MetricGrowth(first, second, UnitsSoldColumn)
              && (r.value.grossGrowth.None? <==> IsBlank(first[GrossSalesColumn]) && IsBlank(second[GrossSalesColumn]))
              && (r.value.unitGrowth.None? <==> IsBlank(first[UnitsSoldColumn]) && IsBlank(second[UnitsSoldColumn]))
              && |data| > 0 && Enrich(kind, data[0]) == Ok(r.value.descriptive)
    ensures && (forall i :: 0 <= i < |data| ==> PeriodColumn in data[i])
            && LastOfPeriod(data, true).Some? && DateColumn !in LastOfPeriod(data, true).value ==>
              r == Err(MissingColumn(DateColumn))
    ensures && (forall i :: 0 <= i < |data| ==> PeriodColumn in data[i])
            && LastOfPeriod(data, true).Some? && DateColumn in LastOfPeriod(data, true).value
            && ParseDate(LastOfPeriod(data, true).value[DateColumn]).Err? ==>
              r == Err(MalformedDate(LastOfPeriod(data, true).value[DateColumn]))
    ensures && (forall i :: 0 <= i < |data| ==> PeriodColumn in data[i])
            && LastOfPeriod(data, true).Some? && DateColumn in LastOfPeriod(data, true).value
            && ParseDate(LastOfPeriod(data, true).value[DateColumn]).Ok? ==>
              && (LastOfPeriod(data, false).None? ==> r == Err(UnboundPeriod("second_period")))
              && (LastOfPeriod(data, false).Some? && DateColumn !in LastOfPeriod(data, false).value ==>
                    r == Err(MissingColumn(DateColumn)))
              && (LastOfPeriod(data, false).Some? && DateColumn in LastOfPeriod(data, false).value
                  && ParseDate(LastOfPeriod(data, false).value[DateColumn]).Err? ==>
                    r == Err(MalformedDate(LastOfPeriod(data, false).value[DateColumn])))
    ensures && (forall i :: 0 <= i < |data| ==> PeriodColumn in data[i])
            && LastOfPeriod(data, true).Some? && LastOfPeriod(data, false).Some? ==>
              (r.Ok? <==>
                 && DateColumn in LastOfPeriod(data, true).value && DateColumn in LastOfPeriod(data, false).value
                 && ParseDate(LastOfPeriod(data, true).value[DateColumn]).Ok?
                 && ParseDate(LastOfPeriod(data, false).value[DateColumn]).Ok?
                 && MetricGrowth(LastOfPeriod(data, true).value, LastOfPeriod(data, false).value, GrossSalesColumn).Ok?
                 && MetricGrowth(LastOfPeriod(data, true).value, LastOfPeriod(data, false).value, UnitsSoldColumn).Ok?
                 && Enrich(kind, data[0]).Ok?)
  {
    if exists i :: 0 <= i < |data| && PeriodColumn !in data[i] then Err(MissingColumn(PeriodColumn))
    else Paired(kind, data, LastOfPeriod(data, true), LastOfPeriod(data, false))
  }

  /** After the loop: reading `first_period`'s date, then `second_period`'s,
      raises when the variable is unbound or the date is missing or malformed. */
  function Paired(kind: EntityKind, data: seq<Row>, first: Option<Row>, second: Option<Row>): (r: Outcome<Comparison>)
    requires first.Some? ==> |data| > 0
    ensures first.None? ==> r == Err(UnboundPeriod("first_period"))
    ensures first.Some? && DateColumn !in first.value ==> r == Err(MissingColumn(DateColumn))
    ensures first.Some? && DateColumn in first.value && ParseDate(first.value[DateColumn]).Err? ==>
              r == Err(MalformedDate(first.value[DateColumn]))
    ensures first.Some? && DateColumn in first.value && ParseDate(first.value[DateColumn]).Ok? ==>
              && (second.None? ==> r == Err(UnboundPeriod("second_period")))
              && (second.Some? && DateColumn !in second.value ==> r == Err(MissingColumn(DateColumn)))
              && (second.Some? && DateColumn in second.value && ParseDate(second.value[DateColumn]).Err? ==>
                    r == Err(MalformedDate(second.value[DateColumn])))
    ensures r.Ok? ==>
              && first.Some? && second.Some? && DateColumn in first.value && DateColumn in second.value
              && ParseDate(first.value[DateColumn]).Ok? && ParseDate(second.value[DateColumn]).Ok?
    ensures && first.Some? && second.Some? && DateColumn in first.value && DateColumn in second.value
            && ParseDate(first.value[DateColumn]).Ok? && ParseDate(second.value[DateColumn]).Ok? ==>
              r == Compare(kind, data[0], first.value, second.value,
                           ParseDate(first.value[DateColumn]).value, ParseDate(second.value[DateColumn]).value)
  {
    if first.None? then Err(UnboundPeriod("first_period"))
    else
      var previousText :- Lookup(first.value, DateColumn);
      var previous :- ParseDate(previousText);
      if second.None? then Err(UnboundPeriod("second_period"))
      else
        var currentText :- Lookup(second.value, DateColumn);
        var current :- ParseDate(currentText);
        Compare(kind, data[0], first.value, second.value, previous, current)
  }

  /** The tail of the two-period flow: gross growth, then unit growth, then
      the hook on the cohort's first row; the first of them to raise wins. */
  function Compare(kind: EntityKind, head: Row, first: Row, second: Row, previous: Date, current: Date): (r: Outcome<Comparison>)
    ensures MetricGrowth(first, second, GrossSalesColumn).Err? ==> r == Err(MetricGrowth(first, second, GrossSalesColumn).error)
    ensures MetricGrowth(first, second, GrossSalesColumn).Ok? && MetricGrowth(first, second, UnitsSoldColumn).Err? ==>
              r == Err(MetricGrowth(first, second, UnitsSoldColumn).error)
    ensures MetricGrowth(first, second, GrossSalesColumn).Ok? && MetricGrowth(first, second, UnitsSoldColumn).Ok? ==>
              (r.Ok? <==> Enrich(kind, head).Ok?)
    ensures && MetricGrowth(first, second, GrossSalesColumn).Ok? && MetricGrowth(first, second, UnitsSoldColumn).Ok?
            && Enrich(kind, head).Err? ==>
              r == Err(Enrich(kind, head).error)
    ensures r.Ok? ==>
              && r.value.previousWeek == previous && r.value.currentWeek == current
              && Ok(r.value.grossGrowth) == MetricGrowth(first, second, GrossSalesColumn)
              && Ok(r.value.unitGrowth) == MetricGrowth(first, second, UnitsSoldColumn)
              && Enrich(kind, head) == Ok(r.value.descriptive)
  {
    var gross :- MetricGrowth(first, second, GrossSalesColumn);
    var units :- MetricGrowth(first, second, UnitsSoldColumn);
    var fields :- Enrich(kind, head);
    Ok(Comparison(previous, current, gross, units, fields))
  }

  /** Once both period rows are bound and both dates parse, the two-period
      flow raises the gross growth's error, else the unit growth's, else the
      hook's: a zero previous value, a malformed or missing cell and a
      missing descriptive column each surface in that order. */
  lemma SeveralGrowthErrors(kind: EntityKind, data: seq<Row>)
    requires forall i :: 0 <= i < |data| ==> PeriodColumn in data[i]
    requires LastOfPeriod(data, true).Some? && LastOfPeriod(data, false).Some?
    requires DateColumn in LastOfPeriod(data, true).value && DateColumn in LastOfPeriod(data, false).value
    requires ParseDate(LastOfPeriod(data, true).value[DateColumn]).Ok?
    requires ParseDate(LastOfPeriod(data, false).value[DateColumn]).Ok?
    ensures var first, second := LastOfPeriod(data, true).value, LastOfPeriod(data, false).value;
            && (MetricGrowth(first, second, GrossSalesColumn).Err? ==>
                  ReconcileSeveral(kind, data) == Err(MetricGrowth(first, second, GrossSalesColumn).error))
            && (MetricGrowth(first, second, GrossSalesColumn).Ok? && MetricGrowth(first, second, UnitsSoldColumn).Err? ==>
                  ReconcileSeveral(kind, data) == Err(MetricGrowth(first, second, UnitsSoldColumn).error))
            && (&& MetricGrowth(first, second, GrossSalesColumn).Ok? && MetricGrowth(first, second, UnitsSoldColumn).Ok?
                && Enrich(kind, data[0]).Err? ==>
                  ReconcileSeveral(kind, data) == Err(Enrich(kind, data[0]).error))
  {
    assert !exists i :: 0 <= i < |data| && PeriodColumn !in data[i];
  }

  /** `_clean_data(data)`: one-period flow for a single row, two-period flow otherwise. */
  function Reconcile(kind: EntityKind, data: seq<Row>): (r: Outcome<Comparison>)
    ensures data == [] ==> r == Err(UnboundPeriod("first_period"))
    ensures r.Ok? ==> |data| > 0 && Enrich(kind, data[0]) == Ok(r.value.descriptive)
    ensures r.Ok? ==> r.value.descriptive.Keys == OutputKeys(kind.fields)
  {
    if |data| == 1 then ReconcileSingle(kind, data[0]) else ReconcileSeveral(kind, data)
  }

  /** A cohort of one previous-period row and one current-period row, in
      either order: `previous` comes from the first, `current` from the second. */
  lemma TwoRowCohort(kind: EntityKind, a: Row, b: Row)
    requires PeriodColumn in a && PeriodColumn in b
    requires IsPrevious(a) && !IsPrevious(b)
    ensures var r, r' := Reconcile(kind, [a, b]), Reconcile(kind, [b, a]);
            && (r.Ok? ==> Ok(r.value.previousWeek) == ParseDate(a[DateColumn]) && Ok(r.value.currentWeek) == ParseDate(b[DateColumn]))
            && (r'.Ok? ==> Ok(r'.value.previousWeek) == ParseDate(a[DateColumn]) && Ok(r'.value.currentWeek) == ParseDate(b[DateColumn]))
    ensures && DateColumn in a && DateColumn in b && ParseDate(a[DateColumn]).Ok? && ParseDate(b[DateColumn]).Ok?
            && MetricGrowth(a, b, GrossSalesColumn).Ok? && MetricGrowth(a, b, UnitsSoldColumn).Ok?
            && Enrich(kind, a).Ok? && Enrich(kind, b).Ok? ==>
              && Reconcile(kind, [a, b]) ==
                 Ok(Comparison(ParseDate(a[DateColumn]).value, ParseDate(b[DateColumn]).value,
                               MetricGrowth(a, b, GrossSalesColumn).value, MetricGrowth(a, b, UnitsSoldColumn).value,
                               Enrich(kind, a).value))
              && Reconcile(kind, [b, a]) ==
                 Ok(Comparison(ParseDate(a[DateColumn]).value, ParseDate(b[DateColumn]).value,
                               MetricGrowth(a, b, GrossSalesColumn).value, MetricGrowth(a, b, UnitsSoldColumn).value,
                               Enrich(kind, b).value))
  {
    LastOfPair(a, b, true);
    LastOfPair(a, b, false);
    LastOfPair(b, a, true);
    LastOfPair(b, a, false);
    assert forall i :: 0 <= i < |[a, b]| ==> PeriodColumn in [a, b][i];
    assert forall i :: 0 <= i < |[b, a]| ==> PeriodColumn in [b, a][i];
  }

  /** Two rows of the same period cannot be reconciled: with no previous-period
      row `first_period` is unbound; with two of them `second_period` is. */
  lemma AmbiguousPair(kind: EntityKind, a: Row, b: Row)
    requires PeriodColumn in a && PeriodColumn in b
    requires IsPrevious(a) == IsPrevious(b)
    ensures Reconcile(kind, [a, b]).Err?
    ensures !IsPrevious(a) ==> Reconcile(kind, [a, b]) == Err(UnboundPeriod("first_period"))
    ensures IsPrevious(a) && DateColumn in b && ParseDate(b[DateColumn]).Ok? ==>
              Reconcile(kind, [a, b]) == Err(UnboundPeriod("second_period"))
  {
    assert [a, b][..1] == [a];
    assert LastOfPeriod([a, b], !IsPrevious(a)) == None;
    if IsPrevious(a) {
      assert LastOfPeriod([a, b], true) == Some(b);
    }
  }
}

=== FILE: reporting.dfy ===
/** `DataReporter.calculate_data`: cohorts, then one comparison record per
    cohort, then the kind's sort. */
module Reporting {
  import opened Wrappers
  import opened Errors
  import opened Rows
  import opened Entities
  import opened Ingest
  import opened Cohorts
  import opened Reconciliation
  import opened Sorting

  /** `order` is one enumeration of the set `s`: each element once. */
  predicate Enumerates(order: seq<string>, s: set<string>) {
    NoDuplicates(order) && (forall x :: x in order ==> x in s) && (forall x :: x in s ==> x in order)
  }

  /** The outcomes of a loop that stops at the first exception: every value
      when all succeed, otherwise the first error. */
  function Collect<T>(os: seq<Outcome<T>>): (r: Outcome<seq<T>>)
    ensures r.Ok? <==> forall i :: 0 <= i < |os| ==> os[i].Ok?
    ensures r.Ok? ==> |r.value| == |os| && forall i :: 0 <= i < |os| ==> os[i] == Ok(r.value[i])
  {
    if os == [] then Ok([])
    else
      var head :- os[0];
      var tail :- Collect(os[1..]);
      assert forall i :: 1 <= i < |os| ==> os[i] == os[1..][i - 1];
      Ok([head] + tail)
  }

  lemma {:induction false} CollectFirstFailure<T>(os: seq<Outcome<T>>)
    requires Collect(os).Err?
    ensures exists i :: 0 <= i < |os| && os[i] == Err(Collect(os).error) && forall j :: 0 <= j < i ==> os[j].Ok?
  {
    if os[0].Ok? {
      CollectFirstFailure(os[1..]);
      var i :| 0 <= i < |os[1..]| && os[1..][i] == Err(Collect(os[1..]).error) && forall j :: 0 <= j < i ==> os[1..][j].Ok?;
      assert os[i + 1] == os[1..][i];
      assert forall j :: 1 <= j < i + 1 ==> os[j] == os[1..][j - 1];
    }
  }

  /** What `_clean_data` yields for each cohort, in visiting order. */
  function Outcomes(kind: EntityKind, cs: seq<Cohort>): (os: seq<Outcome<Comparison>>)
    ensures |os| == |cs| && forall i :: 0 <= i < |cs| ==> os[i] == Reconcile(kind, cs[i].members)
  {
    seq(|cs|, i requires 0 <= i < |cs| => Reconcile(kind, cs[i].members))
  }

  /** `_clean_data` applied to each cohort in turn; the first failure aborts. */
  function ReconcileAll(kind: EntityKind, cs: seq<Cohort>): (r: Outcome<seq<Comparison>>)
    ensures r.Ok? <==> forall i :: 0 <= i < |cs| ==> Reconcile(kind, cs[i].members).Ok?
    ensures r.Ok? ==> |r.value| == |cs| && forall i :: 0 <= i < |cs| ==> Reconcile(kind, cs[i].members) == Ok(r.value[i])
  {
    Collect(Outcomes(kind, cs))
  }

  /** The error of a failed run is the one raised by the first cohort that fails. */
  lemma FirstFailureReported(kind: EntityKind, cs: seq<Cohort>)
    requires ReconcileAll(kind, cs).Err?
    ensures exists i :: && 0 <= i < |cs| && Reconcile(kind, cs[i].members) == Err(ReconcileAll(kind, cs).error)
                        && forall j :: 0 <= j < i ==> Reconcile(kind, cs[j].members).Ok?
  {
    CollectFirstFailure(Outcomes(kind, cs));
  }

  /** `calculate_data` on a constructed reporter. `idOrder` and `keyOrder`
      are the orders in which Python happens to iterate the identifier and
      date-key sets. */
  function CalculateData(rep: Reporter, idOrder: seq<string>, keyOrder: seq<string>): (r: Outcome<seq<Comparison>>)
    requires ValidKind(rep.kind)
    requires forall i :: 0 <= i < |rep.records| ==> HasKeyColumns(rep.kind, rep.records[i])
    requires Enumerates(idOrder, rep.identifiers) && Enumerates(keyOrder, rep.dateKeys)
    ensures r.Ok? <==> ReconcileAll(rep.kind, CohortsOf(rep.kind, rep.records, idOrder, keyOrder)).Ok?
    ensures r.Err? ==> r.error == ReconcileAll(rep.kind, CohortsOf(rep.kind, rep.records, idOrder, keyOrder)).error
    ensures r.Ok? ==> |r.value| == |NonEmptyPairs(rep.kind, rep.records, idOrder, keyOrder)|
    ensures r.Ok? ==> Sorted(rep.kind.nameKey, r.value)
    ensures r.Ok? ==> multiset(r.value) == multiset(ReconcileAll(rep.kind, CohortsOf(rep.kind, rep.records, idOrder, keyOrder)).value)
    ensures r.Ok? ==> forall k :: WithKey(rep.kind.nameKey, r.value, k) ==
                                 WithKey(rep.kind.nameKey, ReconcileAll(rep.kind, CohortsOf(rep.kind, rep.records, idOrder, keyOrder)).value, k)
  {
    var cohorts := CohortsOf(rep.kind, rep.records, idOrder, keyOrder);
    match ReconcileAll(rep.kind, cohorts)
    case Err(e) => Err(e)
    case Ok(records) =>
      CohortCount(rep.kind, rep.records, idOrder, keyOrder);
      ReconciledCarryNames(rep.kind, cohorts, records);
      Ok(SortReport(rep.kind, records))
  }

  /** Each record of the report is the reconciliation of an emitted cohort, and each emitted cohort has its record in the report. */
  lemma ReportContents(rep: Reporter, idOrder: seq<string>, keyOrder: seq<string>)
    requires ValidKind(rep.kind)
    requires forall i :: 0 <= i < |rep.records| ==> HasKeyColumns(rep.kind, rep.records[i])
    requires Enumerates(idOrder, rep.identifiers) && Enumerates(keyOrder, rep.dateKeys)
    requires CalculateData(rep, idOrder, keyOrder).Ok?
    ensures var cs := CohortsOf(rep.kind, rep.records, idOrder, keyOrder);
            forall x :: x in CalculateData(rep, idOrder, keyOrder).value <==> exists c :: c in cs && Reconcile(rep.kind, c.members) == Ok(x)
  {
    var cs := CohortsOf(rep.kind, rep.records, idOrder, keyOrder);
    var records := ReconcileAll(rep.kind, cs).value;
    var sorted := CalculateData(rep, idOrder, keyOrder).value;
    assert multiset(sorted) == multiset(records);
    assert forall x :: x in sorted <==> x in records by {
      assert forall x :: x in sorted <==> x in multiset(sorted);
      assert forall x :: x in records <==> x in multiset(records);
    }
    InCohortsIffReconciled(rep.kind, cs, records);
  }

  /** A failed run reports the error of the first cohort, in iteration order, that fails. */
  lemma ReportFailure(rep: Reporter, idOrder: seq<string>, keyOrder: seq<string>, cs: seq<Cohort>)
    requires ValidKind(rep.kind)
    requires forall i :: 0 <= i < |rep.records| ==> HasKeyColumns(rep.kind, rep.records[i])
    requires Enumerates(idOrder, rep.identifiers) && Enumerates(keyOrder, rep.dateKeys)
    requires cs == CohortsOf(rep.kind, rep.records, idOrder, keyOrder)
    requires CalculateData(rep, idOrder, keyOrder).Err?
    ensures exists i :: && 0 <= i < |cs| && Reconcile(rep.kind, cs[i].members) == Err(CalculateData(rep, idOrder, keyOrder).error)
                        && forall j :: 0 <= j < i ==> Reconcile(rep.kind, cs[j].members).Ok?
  {
    assert CalculateData(rep, idOrder, keyOrder).error == ReconcileAll(rep.kind, cs).error;
    FirstFailureReported(rep.kind, cs);
  }

  lemma ReconciledCarryNames(kind: EntityKind, cs: seq<Cohort>, records: seq<Comparison>)
    requires ValidKind(kind)
    requires ReconcileAll(kind, cs) == Ok(records)
    ensures forall c :: c in records ==> kind.nameKey in c.descriptive
  {
    forall c | c in records ensures kind.nameKey in c.descriptive {
      var i :| 0 <= i < |records| && records[i] == c;
      assert Reconcile(kind, cs[i].members) == Ok(c);
    }
  }

  lemma InCohortsIffReconciled(kind: EntityKind, cs: seq<Cohort>, records: seq<Comparison>)
    requires ReconcileAll(kind, cs) == Ok(records)
    ensures forall x :: x in records <==> exists c :: c in cs && Reconcile(kind, c.members) == Ok(x)
  {
    forall x | x in records ensures exists c :: c in cs && Reconcile(kind, c.members) == Ok(x) {
      var i :| 0 <= i < |records| && records[i] == x;
      assert cs[i] in cs && Reconcile(kind, cs[i].members) == Ok(x);
    }
    forall x | (exists c :: c in cs && Reconcile(kind, c.members) == Ok(x)) ensures x in records {
      var c :| c in cs && Reconcile(kind, c.members) == Ok(x);
      var i :| 0 <= i < |cs| && cs[i] == c;
      assert records[i] == x;
    }
  }

  /** After ingestion every row belongs to the emitted cohort of its own identifier and date key ... */
  lemma RowHasCohort(rep: Reporter, idOrder: seq<string>, keyOrder: seq<string>, row: Row)
    requires IngestedFrom(rep, rep.kind, rep.records)
    requires Enumerates(idOrder, rep.identifiers) && Enumerates(keyOrder, rep.dateKeys)
    requires row in rep.records
    ensures exists j :: && 0 <= j < |CohortsOf(rep.kind, rep.records, idOrder, keyOrder)|
                        && var c := CohortsOf(rep.kind, rep.records, idOrder, keyOrder)[j];
                           row in c.members && InCohort(rep.kind, row, c.id, c.dateKey)
  {
    var kind, rows := rep.kind, rep.records;
    var cs := CohortsOf(kind, rows, idOrder, keyOrder);
    var n :| 0 <= n < |rows| && rows[n] == row;
    assert HasKeyColumns(kind, rows[n]);
    var id, key := row[kind.idColumn], DateKey(row[DateColumn]);
    assert id in idOrder && key in keyOrder by {
      assert id in IdentifiersOf(kind, rows);
      assert key in DateKeysOf(rows);
    }
    assert InCohort(kind, row, id, key);
    assert (id, key) in PairsOf(cs) by {
      assert row in Matching(kind, rows, id, key);
      CohortsComplete(kind, rows, idOrder, keyOrder);
    }
    var j :| 0 <= j < |PairsOf(cs)| && PairsOf(cs)[j] == (id, key);
    assert cs[j].id == id && cs[j].dateKey == key;
    assert row in cs[j].members by {
      CohortsSound(kind, rows, idOrder, keyOrder);
      assert cs[j] in cs;
      assert cs[j].members == Matching(kind, rows, id, key);
    }
    assert 0 <= j < |cs| && row in cs[j].members && InCohort(rep.kind, row, cs[j].id, cs[j].dateKey);
  }

  /** ... and to no other. */
  lemma RowInOneCohort(rep: Reporter, idOrder: seq<string>, keyOrder: seq<string>, row: Row)
    requires Enumerates(idOrder, rep.identifiers) && Enumerates(keyOrder, rep.dateKeys)
    ensures var cs := CohortsOf(rep.kind, rep.records, idOrder, keyOrder);
            forall j1, j2 :: 0 <= j1 < |cs| && 0 <= j2 < |cs| && row in cs[j1].members && row in cs[j2].members ==> j1 == j2
  {
    var kind, rows := rep.kind, rep.records;
    var cs := CohortsOf(kind, rows, idOrder, keyOrder);
    CohortsSound(kind, rows, idOrder, keyOrder);
    CohortsDistinct(kind, rows, idOrder, keyOrder);
    forall j1, j2 | 0 <= j1 < |cs| && 0 <= j2 < |cs| && row in cs[j1].members && row in cs[j2].members
      ensures j1 == j2
    {
      assert cs[j1] in cs && cs[j2] in cs;
      assert InCohort(kind, row, cs[j1].id, cs[j1].dateKey);
      assert InCohort(kind, row, cs[j2].id, cs[j2].dateKey);
      assert PairsOf(cs)[j1] == PairsOf(cs)[j2];
    }
  }
}

=== FILE: rows.dfy ===
/** Raw CSV rows and the column names the reporter relies on. */
module Rows {
  import opened Wrappers
  import opened Errors

  /** One CSV data row: column name to cell text. */
  type Row = map<string, string>

  const DateColumn := "week_commencing_date"
  const PeriodColumn := "period_id"
  const GrossSalesColumn := "gross_sales"
  const UnitsSoldColumn := "units_sold"

  /** The `period_id` value that marks the previous period; every other value is the current one. */
  const PreviousPeriod := "1"

  /** `row[column]`, raising `KeyError` when the column is absent. */
  function Lookup(row: Row, column: string): (r: Outcome<string>)
    ensures r.Ok? <==> column in row
    ensures r.Ok? ==> r.value == row[column]
    ensures r.Err? ==> r.error == MissingColumn(column)
  {
    if column in row then Ok(row[column]) else Err(MissingColumn(column))
  }

  /** The date key of a `week_commencing_date` cell: Python's `text[:5]`, i.e. `DD/MM` for a canonical date. */
  function DateKey(text: string): (k: string)
    ensures |k| == if |text| < 5 then |text| else 5
    ensures k <= text
  {
    if |text| < 5 then text else text[..5]
  }

  /** A row that is an observation of the previous period (`row['period_id'] == '1'`). */
  predicate IsPrevious(row: Row) {
    PeriodColumn in row && row[PeriodColumn] == PreviousPeriod
  }

  /** Python's truthiness of a cell: only the empty string is falsy. */
  predicate IsBlank(text: string) {
    |text| == 0
  }
}

=== FILE: scenarios.dfy ===
/** Worked cases on rows shaped like the repository's test fixtures. */
module Scenarios {
  import opened Wrappers
  import opened Errors
  import opened Rows
  import opened Dates
  import opened Decimals
  import opened Growth
  import opened Entities
  import opened Reconciliation
  import opened Ordering
  import opened Sorting

  /** A brand row with the columns the one-row flow reads. */
  function BrandRow(period: string, date: string, id: string, name: string): Row {
    map[PeriodColumn := period, DateColumn := date, "brand_id" := id, "brand" := name]
  }

  lemma ReadsDate(text: string, d: Date)
    requires ValidDate(d) && FormatDate(d) == text
    ensures ParseDate(text) == Ok(d)
  {
    ParseFormatRoundTrip(d);
  }

  lemma Week20210725() ensures ParseDate("25/07/2021") == Ok(Date(25, 7, 2021)) {
    assert TwoDigits(25) == "25" && TwoDigits(7) == "07" && FourDigits(2021) == "2021";
    ReadsDate("25/07/2021", Date(25, 7, 2021));
  }

  lemma Week20220704() ensures ParseDate("04/07/2022") == Ok(Date(4, 7, 2022)) {
    assert TwoDigits(4) == "04" && TwoDigits(7) == "07" && FourDigits(2022) == "2022";
    ReadsDate("04/07/2022", Date(4, 7, 2022));
  }

  lemma Day20200229() ensures ParseDate("29/02/2020") == Ok(Date(29, 2, 2020)) {
    assert TwoDigits(29) == "29" && TwoDigits(2) == "02" && FourDigits(2020) == "2020";
    ReadsDate("29/02/2020", Date(29, 2, 2020));
  }

  /** The one-row flow on a previous-period row whose date parses to `d`. */
  lemma LonePrevious(kind: EntityKind, row: Row, d: Date)
    requires IsPrevious(row) && DateColumn in row && ParseDate(row[DateColumn]) == Ok(d)
    ensures ShiftYear(d, 1).Err? ==> Reconcile(kind, [row]) == Err(ShiftYear(d, 1).error)
    ensures ShiftYear(d, 1).Ok? && Enrich(kind, row).Ok? ==>
              Reconcile(kind, [row]) ==
              Ok(Comparison(d, ShiftYear(d, 1).value, Some(LossGrowth), Some(LossGrowth), Enrich(kind, row).value))
  {
    assert Reconcile(kind, [row]) == ReconcileSingle(kind, row);
  }

  /** The one-row flow on a current-period row whose date parses to `d`. */
  lemma LoneCurrent(kind: EntityKind, row: Row, d: Date)
    requires PeriodColumn in row && !IsPrevious(row) && DateColumn in row && ParseDate(row[DateColumn]) == Ok(d)
    ensures ShiftYear(d, -1).Err? ==> Reconcile(kind, [row]) == Err(ShiftYear(d, -1).error)
    ensures ShiftYear(d, -1).Ok? && Enrich(kind, row).Ok? ==>
              Reconcile(kind, [row]) == Ok(Comparison(ShiftYear(d, -1).value, d, None, None, Enrich(kind, row).value))
  {
    assert Reconcile(kind, [row]) == ReconcileSingle(kind, row);
  }

  /** A lone previous-period row: total loss, compared with the same week a year later. */
  lemma PreviousOnly()
    ensures Reconcile(Brand, [BrandRow("1", "25/07/2021", "1", "Brand A")]) ==
            Ok(Comparison(Date(25, 7, 2021), Date(25, 7, 2022), Some(LossGrowth), Some(LossGrowth),
                          map["brand_id" := "1", "brand_name" := "Brand A"]))
  {
    var row := BrandRow("1", "25/07/2021", "1", "Brand A");
    assert row[DateColumn] == "25/07/2021" && IsPrevious(row);
    assert "brand_id" in row && "brand" in row && row["brand_id"] == "1" && row["brand"] == "Brand A";
    Week20210725();
    BrandEnrichment(row);
    assert ShiftYear(Date(25, 7, 2021), 1) == Ok(Date(25, 7, 2022));
    LonePrevious(Brand, row, Date(25, 7, 2021));
  }

  /** A lone current-period row: unknown growth, compared with the same week a year earlier. */
  lemma CurrentOnly()
    ensures Reconcile(Brand, [BrandRow("2", "04/07/2022", "4", "Brand D")]) ==
            Ok(Comparison(Date(4, 7, 2021), Date(4, 7, 2022), None, None,
                          map["brand_id" := "4", "brand_name" := "Brand D"]))
  {
    var row := BrandRow("2", "04/07/2022", "4", "Brand D");
    assert row[DateColumn] == "04/07/2022" && PeriodColumn in row && !IsPrevious(row);
    assert "brand_id" in row && "brand" in row && row["brand_id"] == "4" && row["brand"] == "Brand D";
    Week20220704();
    BrandEnrichment(row);
    assert ShiftYear(Date(4, 7, 2022), -1) == Ok(Date(4, 7, 2021));
    LoneCurrent(Brand, row, Date(4, 7, 2022));
  }

  /** A lone previous-period row dated 29 February cannot be moved into a common year. */
  lemma LeapDayPrevious()
    ensures Reconcile(Brand, [BrandRow("1", "29/02/2020", "1", "Brand A")]) ==
            Err(DateOutOfRange(29, 2, 2021))
  {
    var row := BrandRow("1", "29/02/2020", "1", "Brand A");
    assert row[DateColumn] == "29/02/2020" && IsPrevious(row);
    Day20200229();
    assert !ValidDate(Date(29, 2, 2021));
    assert ShiftYear(Date(29, 2, 2020), 1) == Err(DateOutOfRange(29, 2, 2021));
    LonePrevious(Brand, row, Date(29, 2, 2020));
  }

  /** A cohort whose last previous-period row `a` and last other row `b`
      both hold `"0"` gross sales fails on the division. */
  lemma ZeroSalesCohort(kind: EntityKind, data: seq<Row>, a: Row, b: Row)
    requires |data| != 1 && forall i :: 0 <= i < |data| ==> PeriodColumn in data[i]
    requires LastOfPeriod(data, true) == Some(a) && LastOfPeriod(data, false) == Some(b)
    requires DateColumn in a && DateColumn in b
    requires ParseDate(a[DateColumn]).Ok? && ParseDate(b[DateColumn]).Ok?
    requires GrossSalesColumn in a && GrossSalesColumn in b
    requires a[GrossSalesColumn] == "0" && b[GrossSalesColumn] == "0"
    ensures Reconcile(kind, data) == Err(DivisionByZero)
  {
    var previous, current := ParseDate(a[DateColumn]).value, ParseDate(b[DateColumn]).value;
    ZeroCellsDivideByZero(a, b, GrossSalesColumn);
    assert Compare(kind, data[0], a, b, previous, current) == Err(DivisionByZero);
    assert Paired(kind, data, Some(a), Some(b)) == Compare(kind, data[0], a, b, previous, current);
    assert !exists i :: 0 <= i < |data| && PeriodColumn !in data[i];
    assert ReconcileSeveral(kind, data) == Paired(kind, data, Some(a), Some(b));
  }

  /** Zero sales in both periods: the cells are `"0"`, not empty, so the
      division raises, whatever the entity kind and the order of the rows. */
  lemma ZeroSalesBothPeriods(kind: EntityKind, a: Row, b: Row)
    requires PeriodColumn in a && PeriodColumn in b && IsPrevious(a) && !IsPrevious(b)
    requires DateColumn in a && DateColumn in b
    requires ParseDate(a[DateColumn]).Ok? && ParseDate(b[DateColumn]).Ok?
    requires GrossSalesColumn in a && GrossSalesColumn in b
    requires a[GrossSalesColumn] == "0" && b[GrossSalesColumn] == "0"
    ensures Reconcile(kind, [a, b]) == Err(DivisionByZero)
    ensures Reconcile(kind, [b, a]) == Err(DivisionByZero)
  {
    var ab: seq<Row>, ba: seq<Row> := [a, b], [b, a];
    assert LastOfPeriod(ab, true) == Some(a) && LastOfPeriod(ab, false) == Some(b) by {
      LastOfPair(a, b, true);
      LastOfPair(a, b, false);
    }
    assert LastOfPeriod(ba, true) == Some(a) && LastOfPeriod(ba, false) == Some(b) by {
      LastOfPair(b, a, true);
      LastOfPair(b, a, false);
    }
    assert forall i :: 0 <= i < |ab| ==> PeriodColumn in ab[i];
    assert forall i :: 0 <= i < |ba| ==> PeriodColumn in ba[i];
    ZeroSalesCohort(kind, ab, a, b);
    ZeroSalesCohort(kind, ba, a, b);
  }

  /** Gross sales 314.31 then 303.78: growth -3.35 per cent. */
  lemma StandardGrowth()
    ensures CalculateGrowth(314.31, 303.78) == Ok(-3.35)
  {
    var q := 100.0 * (303.78 - 314.31) / 314.31;
    assert -335.5 < q * 100.0 < -334.5;
    assert (q * 100.0).Floor == -336;
  }

  /** The sales cells of the fixture rows read as the amounts they print. */
  lemma FixtureSalesCells()
    ensures ParseFloat("314.31") == Ok(314.31) && ParseFloat("303.78") == Ok(303.78)
  {
    PreviousSalesCell();
    CurrentSalesCell();
  }

  lemma PreviousSalesCell()
    ensures ParseFloat("314.31") == Ok(314.31)
  {
    assert NatText(3) == "3";
    assert NatText(31) == NatText(3) + "1" == "31";
    assert NatText(314) == NatText(31) + "4" == "314";
    assert TwoDigits(31) == "31";
    assert NatText(314) + "." + TwoDigits(31) == "314.31";
    ParseCents(314, 31);
  }

  lemma CurrentSalesCell()
    ensures ParseFloat("303.78") == Ok(303.78)
  {
    assert NatText(3) == "3";
    assert NatText(30) == NatText(3) + "0" == "30";
    assert NatText(303) == NatText(30) + "3" == "303";
    assert TwoDigits(78) == "78";
    assert NatText(303) + "." + TwoDigits(78) == "303.78";
    ParseCents(303, 78);
  }

  /** The same figures straight from the cells: parsing and the formula together. */
  lemma FixtureGrossGrowth(first: Row, second: Row)
    requires GrossSalesColumn in first && GrossSalesColumn in second
    requires first[GrossSalesColumn] == "314.31" && second[GrossSalesColumn] == "303.78"
    ensures MetricGrowth(first, second, GrossSalesColumn) == Ok(Some(-3.35))
  {
    FixtureSalesCells();
    StandardGrowth();
    assert !IsBlank(first[GrossSalesColumn]);
  }

  /** Units sold 38 then 26: growth -31.58 per cent. */
  lemma UnitGrowthExample()
    ensures CalculateGrowth(38.0, 26.0) == Ok(-31.58)
  {
    var q := 100.0 * (26.0 - 38.0) / 38.0;
    assert -3158.5 < q * 100.0 < -3157.5;
  }

  /** Units 38 then 26 straight from the cells. */
  lemma FixtureUnitGrowth(first: Row, second: Row)
    requires UnitsSoldColumn in first && UnitsSoldColumn in second
    requires first[UnitsSoldColumn] == "38" && second[UnitsSoldColumn] == "26"
    ensures MetricGrowth(first, second, UnitsSoldColumn) == Ok(Some(-31.58))
  {
    assert NatText(38) == NatText(3) + "8" == "38";
    assert NatText(26) == NatText(2) + "6" == "26";
    ParseNatText(38);
    ParseNatText(26);
    UnitGrowthExample();
    assert !IsBlank(first[UnitsSoldColumn]);
  }

  /** A complete brand row as the reader yields it. */
  function SalesRow(period: string, date: string, id: string, name: string, gross: string, units: string): Row {
    map[PeriodColumn := period, "period_name" := if period == PreviousPeriod then "previous" else "current",
        DateColumn := date, "brand_id" := id, "brand" := name, GrossSalesColumn := gross, UnitsSoldColumn := units]
  }

  lemma Week20220725() ensures ParseDate("25/07/2022") == Ok(Date(25, 7, 2022)) {
    assert TwoDigits(25) == "25" && TwoDigits(7) == "07" && FourDigits(2022) == "2022";
    ReadsDate("25/07/2022", Date(25, 7, 2022));
  }

  /** Brand A's two weeks: the previous and current rows, in either order,
      reconcile to one record with growths -3.35 and -31.58. */
  lemma BrandPair()
    ensures var a := SalesRow("1", "25/07/2021", "1", "Brand A", "314.31", "38");
            var b := SalesRow("2", "25/07/2022", "1", "Brand A", "303.78", "26");
            var expected := Ok(Comparison(Date(25, 7, 2021), Date(25, 7, 2022), Some(-3.35), Some(-31.58),
                                          map["brand_id" := "1", "brand_name" := "Brand A"]));
            Reconcile(Brand, [a, b]) == expected && Reconcile(Brand, [b, a]) == expected
  {
    var a := SalesRow("1", "25/07/2021", "1", "Brand A", "314.31", "38");
    var b := SalesRow("2", "25/07/2022", "1", "Brand A", "303.78", "26");
    assert a[DateColumn] == "25/07/2021" && b[DateColumn] == "25/07/2022";
    assert PeriodColumn in a && PeriodColumn in b && IsPrevious(a) && !IsPrevious(b);
    assert a[GrossSalesColumn] == "314.31" && b[GrossSalesColumn] == "303.78";
    assert a[UnitsSoldColumn] == "38" && b[UnitsSoldColumn] == "26";
    assert a["brand_id"] == b["brand_id"] == "1" && a["brand"] == b["brand"] == "Brand A";
    Week20210725();
    Week20220725();
    FixtureGrossGrowth(a, b);
    FixtureUnitGrowth(a, b);
    BrandEnrichment(a);
    BrandEnrichment(b);
    TwoRowCohort(Brand, a, b);
  }

  /** A current-only product record, as the one-row flow builds it. */
  function ProductRecord(barcode: string, name: string, current: Date): Comparison {
    Comparison(Date(current.day, current.month, current.year - 1), current, None, None,
               map["barcode_no" := barcode, "product_name" := name])
  }

  lemma ProductNamesOrdered()
    ensures StrLess("Product A", "Product B")
  {
    assert "Product A" == "Product " + "A" && "Product B" == "Product " + "B";
    StrLessCommonPrefix("Product ", "A", "B");
  }

  /** Records whose names differ are ordered by name alone, whatever their weeks. */
  lemma NameDecides(a: Comparison, b: Comparison, x: string, y: string)
    requires "product_name" in a.descriptive && a.descriptive["product_name"] == x
    requires "product_name" in b.descriptive && b.descriptive["product_name"] == y
    requires StrLess(x, y)
    ensures SortReport(Product, [b, a]) == [a, b]
  {
    assert KeyLess(KeyOf(Product.nameKey, a), KeyOf(Product.nameKey, b));
    SortTwo(Product.nameKey, a, b);
  }

  /** "Product A" is listed before "Product B" whatever their input order. */
  lemma SortByName()
    ensures var a, b := ProductRecord("60988638", "Product A", Date(18, 7, 2022)), ProductRecord("59842899", "Product B", Date(11, 7, 2022));
            SortReport(Product, [b, a]) == [a, b]
  {
    var a, b := ProductRecord("60988638", "Product A", Date(18, 7, 2022)), ProductRecord("59842899", "Product B", Date(11, 7, 2022));
    ProductNamesOrdered();
    NameDecides(a, b, "Product A", "Product B");
  }
}

=== FILE: sorting.dfy ===
/** `_sort_data` of both reporters: `sorted(data, key=itemgetter(name, "current_week_commencing_date"))`,
    a stable sort, modelled as an insertion sort on sequences. */
module Sorting {
  import opened Ordering
  import opened Reconciliation
  import opened Entities

  /** The sort key of a record; `nameKey` is the descriptive field sorted by. */
  function KeyOf(nameKey: string, c: Comparison): SortKey {
    SortKey(if nameKey in c.descriptive then c.descriptive[nameKey] else "", c.currentWeek)
  }

  /** `a` may precede `b`: the key of `b` is not smaller. */
  predicate InOrder(nameKey: string, a: Comparison, b: Comparison) {
    !KeyLess(KeyOf(nameKey, b), KeyOf(nameKey, a))
  }

  ghost predicate Sorted(nameKey: string, s: seq<Comparison>) {
    forall i, j :: 0 <= i < j < |s| ==> InOrder(nameKey, s[i], s[j])
  }

  /** The records of `s` whose key is `k`, in their order in `s`. */
  function WithKey(nameKey: string, s: seq<Comparison>, k: SortKey): seq<Comparison> {
    if s == [] then []
    else (if KeyOf(nameKey, s[0]) == k then [s[0]] else []) + WithKey(nameKey, s[1..], k)
  }

  /** `WithKey` keeps exactly the records of `s` whose key is `k`. */
  lemma {:induction false} WithKeyMembers(nameKey: string, s: seq<Comparison>, k: SortKey)
    ensures forall x :: x in WithKey(nameKey, s, k) <==> x in s && KeyOf(nameKey, x) == k
    decreases |s|
  {
    if s != [] {
      WithKeyMembers(nameKey, s[1..], k);
      assert s == [s[0]] + s[1..];
    }
  }

  /** `x` goes before the first element it does not follow, so it lands ahead of records with an equal key. */
  function Insert(nameKey: string, x: Comparison, s: seq<Comparison>): seq<Comparison> {
    if s == [] then [x]
    else if InOrder(nameKey, x, s[0]) then [x] + s
    else [s[0]] + Insert(nameKey, x, s[1..])
  }

  function InsertionSort(nameKey: string, s: seq<Comparison>): seq<Comparison> {
    if s == [] then [] else Insert(nameKey, s[0], InsertionSort(nameKey, s[1..]))
  }

  lemma InOrderTransitive(nameKey: string, a: Comparison, b: Comparison, c: Comparison)
    requires InOrder(nameKey, a, b) && InOrder(nameKey, b, c)
    ensures InOrder(nameKey, a, c)
  {
    var ka, kb, kc := KeyOf(nameKey, a), KeyOf(nameKey, b), KeyOf(nameKey, c);
    if KeyLess(kc, ka) {
      KeyLessTotal(ka, kb);
      if KeyLess(ka, kb) {
        KeyLessTransitive(kc, ka, kb);
      }
    }
  }

  lemma {:induction false} InsertPermutes(nameKey: string, x: Comparison, s: seq<Comparison>)
    ensures multiset(Insert(nameKey, x, s)) == multiset(s) + multiset{x}
    decreases |s|
  {
    if s != [] && !InOrder(nameKey, x, s[0]) {
      InsertPermutes(nameKey, x, s[1..]);
      assert s == [s[0]] + s[1..];
    }
  }

  lemma SortedTail(nameKey: string, s: seq<Comparison>)
    requires Sorted(nameKey, s) && s != []
    ensures Sorted(nameKey, s[1..])
  {
    var tail := s[1..];
    forall i, j | 0 <= i < j < |tail| ensures InOrder(nameKey, tail[i], tail[j]) {
      assert tail[i] == s[i + 1] && tail[j] == s[j + 1];
    }
  }

  lemma SortedCons(nameKey: string, y: Comparison, t: seq<Comparison>)
    requires Sorted(nameKey, t)
    requires forall z :: z in t ==> InOrder(nameKey, y, z)
    ensures Sorted(nameKey, [y] + t)
  {
    var r := [y] + t;
    forall i, j | 0 <= i < j < |r| ensures InOrder(nameKey, r[i], r[j]) {
      assert r[j] == t[j - 1] && t[j - 1] in t;
      if i > 0 {
        assert r[i] == t[i - 1];
      }
    }
  }

  lemma {:induction false} InsertSorted(nameKey: string, x: Comparison, s: seq<Comparison>)
    requires Sorted(nameKey, s)
    ensures Sorted(nameKey, Insert(nameKey, x, s))
    decreases |s|
  {
    if s == [] {
    } else if InOrder(nameKey, x, s[0]) {
      forall z | z in s ensures InOrder(nameKey, x, z) {
        var j :| 0 <= j < |s| && s[j] == z;
        if j > 0 {
          InOrderTransitive(nameKey, x, s[0], z);
        }
      }
      SortedCons(nameKey, x, s);
    } else {
      var tail := s[1..];
      SortedTail(nameKey, s);
      InsertSorted(nameKey, x, tail);
      InsertPermutes(nameKey, x, tail);
      var t := Insert(nameKey, x, tail);
      HeadBeforeInserted(nameKey, x, s);
      forall y | y in t ensures InOrder(nameKey, s[0], y) {
        assert y in multiset(t);
        if y != x {
          assert y in multiset(tail);
          var j :| 0 <= j < |tail| && tail[j] == y;
          assert s[j + 1] == y;
        }
      }
      SortedCons(nameKey, s[0], t);
    }
  }

  /** When `x` does not go before `s[0]`, `s[0]` goes before `x`. */
  lemma HeadBeforeInserted(nameKey: string, x: Comparison, s: seq<Comparison>)
    requires s != [] && !InOrder(nameKey, x, s[0])
    ensures InOrder(nameKey, s[0], x)
  {
    KeyLessAsymmetric(KeyOf(nameKey, s[0]), KeyOf(nameKey, x));
  }

  lemma {:induction false} InsertStable(nameKey: string, x: Comparison, s: seq<Comparison>, k: SortKey)
    ensures WithKey(nameKey, Insert(nameKey, x, s), k) ==
            (if KeyOf(nameKey, x) == k then [x] else []) + WithKey(nameKey, s, k)
    decreases |s|
  {
    if s == [] {
      assert WithKey(nameKey, [x], k) == (if KeyOf(nameKey, x) == k then [x] else []) + WithKey(nameKey, [], k);
    } else if InOrder(nameKey, x, s[0]) {
      assert ([x] + s)[1..] == s;
      WithKeyCons(nameKey, [x] + s, k);
    } else {
      var t := Insert(nameKey, x, s[1..]);
      var hx := if KeyOf(nameKey, x) == k then [x] else [];
      var hs := if KeyOf(nameKey, s[0]) == k then [s[0]] else [];
      var w := WithKey(nameKey, s[1..], k);
      assert Insert(nameKey, x, s) == [s[0]] + t;
      assert WithKey(nameKey, [s[0]] + t, k) == hs + WithKey(nameKey, t, k) by {
        assert ([s[0]] + t)[1..] == t;
        WithKeyCons(nameKey, [s[0]] + t, k);
      }
      assert WithKey(nameKey, t, k) == hx + w by {
        InsertStable(nameKey, x, s[1..], k);
      }
      assert WithKey(nameKey, s, k) == hs + w by {
        WithKeyCons(nameKey, s, k);
      }
      assert hx == [] || hs == [] by {
        KeyLessIrreflexive(KeyOf(nameKey, x));
      }
      assert hs + (hx + w) == hx + (hs + w);
    }
  }

  lemma {:induction false} SortCorrect(nameKey: string, s: seq<Comparison>)
    ensures Sorted(nameKey, InsertionSort(nameKey, s))
    ensures multiset(InsertionSort(nameKey, s)) == multiset(s)
    ensures forall k :: WithKey(nameKey, InsertionSort(nameKey, s), k) == WithKey(nameKey, s, k)
    decreases |s|
  {
    if s != [] {
      var sorted := InsertionSort(nameKey, s[1..]);
      SortCorrect(nameKey, s[1..]);
      InsertSorted(nameKey, s[0], sorted);
      InsertPermutes(nameKey, s[0], sorted);
      assert s == [s[0]] + s[1..];
      forall k ensures WithKey(nameKey, InsertionSort(nameKey, s), k) == WithKey(nameKey, s, k) {
        InsertStable(nameKey, s[0], sorted, k);
      }
    }
  }

  /** No record of a sorted sequence has a key smaller than its head's. */
  lemma NotBeforeHead(nameKey: string, s: seq<Comparison>, x: Comparison)
    requires Sorted(nameKey, s) && x in s
    ensures InOrder(nameKey, s[0], x)
  {
    var i :| 0 <= i < |s| && s[i] == x;
    if i == 0 {
      KeyLessIrreflexive(KeyOf(nameKey, x));
    }
  }

  lemma WithKeyCons(nameKey: string, s: seq<Comparison>, k: SortKey)
    requires s != []
    ensures WithKey(nameKey, s, k) == (if KeyOf(nameKey, s[0]) == k then [s[0]] else []) + WithKey(nameKey, s[1..], k)
  {
  }

  /** Two sorted sequences with the same records of each key start alike. */
  lemma SameHead(nameKey: string, a: seq<Comparison>, b: seq<Comparison>)
    requires Sorted(nameKey, a) && Sorted(nameKey, b) && a != [] && b != []
    requires forall k :: WithKey(nameKey, a, k) == WithKey(nameKey, b, k)
    ensures a[0] == b[0]
  {
    var k0, k1 := KeyOf(nameKey, a[0]), KeyOf(nameKey, b[0]);
    var wa0, wb0 := WithKey(nameKey, a, k0), WithKey(nameKey, b, k0);
    var wa1, wb1 := WithKey(nameKey, a, k1), WithKey(nameKey, b, k1);
    assert wa0 == wb0 && wa1 == wb1;
    WithKeyCons(nameKey, a, k0);
    WithKeyCons(nameKey, b, k1);
    assert a[0] in wa0;
    assert b[0] in wb1;
    WithKeyMembers(nameKey, b, k0);
    WithKeyMembers(nameKey, a, k1);
    NotBeforeHead(nameKey, b, a[0]);
    NotBeforeHead(nameKey, a, b[0]);
    KeyLessTotal(k0, k1);
    assert k0 == k1;
    WithKeyCons(nameKey, b, k0);
    assert wa0[0] == a[0] && wb0[0] == b[0];
  }

  /** A sorted sequence is determined by its records of each key, in order:
      whatever stable sort produced it, the result is this one. */
  lemma {:induction false} StableSortUnique(nameKey: string, a: seq<Comparison>, b: seq<Comparison>)
    requires Sorted(nameKey, a) && Sorted(nameKey, b)
    requires forall k :: WithKey(nameKey, a, k) == WithKey(nameKey, b, k)
    ensures a == b
    decreases |a|
  {
    if a == [] || b == [] {
      if a != [] {
        WithKeyCons(nameKey, a, KeyOf(nameKey, a[0]));
      } else if b != [] {
        WithKeyCons(nameKey, b, KeyOf(nameKey, b[0]));
      }
    } else {
      SameHead(nameKey, a, b);
      var ta, tb := a[1..], b[1..];
      forall k ensures WithKey(nameKey, ta, k) == WithKey(nameKey, tb, k) {
        var h := if KeyOf(nameKey, a[0]) == k then [a[0]] else [];
        WithKeyCons(nameKey, a, k);
        WithKeyCons(nameKey, b, k);
        assert h + WithKey(nameKey, ta, k) == h + WithKey(nameKey, tb, k);
        assert WithKey(nameKey, ta, k) == (h + WithKey(nameKey, ta, k))[|h|..];
        assert WithKey(nameKey, tb, k) == (h + WithKey(nameKey, tb, k))[|h|..];
      }
      SortedTail(nameKey, a);
      SortedTail(nameKey, b);
      StableSortUnique(nameKey, ta, tb);
      assert a == [a[0]] + ta && b == [b[0]] + tb;
    }
  }

  /** Two records with different keys come out in key order, whichever came first. */
  lemma SortTwo(nameKey: string, x: Comparison, y: Comparison)
    requires KeyLess(KeyOf(nameKey, x), KeyOf(nameKey, y))
    ensures InsertionSort(nameKey, [x, y]) == [x, y]
    ensures InsertionSort(nameKey, [y, x]) == [x, y]
  {
    KeyLessAsymmetric(KeyOf(nameKey, x), KeyOf(nameKey, y));
    assert InsertionSort(nameKey, [x]) == [x] && InsertionSort(nameKey, [y]) == [y] by {
      assert [x][1..] == [] && [y][1..] == [];
    }
    assert [x, y][1..] == [y] && [y, x][1..] == [x];
    assert Insert(nameKey, y, [x]) == [x, y] by {
      assert [x][1..] == [];
    }
  }

  /** `_sort_data`: ascending by (name, current week), stable on ties, a
      permutation of its input. Every record must carry the name field,
      or `itemgetter` raises. */
  function SortReport(kind: EntityKind, records: seq<Comparison>): (sorted: seq<Comparison>)
    requires forall c :: c in records ==> kind.nameKey in c.descriptive
    ensures Sorted(kind.nameKey, sorted)
    ensures multiset(sorted) == multiset(records)
    ensures forall k :: WithKey(kind.nameKey, sorted, k) == WithKey(kind.nameKey, records, k)
  {
    SortCorrect(kind.nameKey, records);
    InsertionSort(kind.nameKey, records)
  }
}

=== FILE: wrappers.dfy ===
/** Failure-compatible wrappers used throughout the model.
    - Option<T>: a value that may be absent (Python's `None`).
    - Result<T, E>: a value or the exception that aborted the computation; usable with `:-`.
 */
module Wrappers {

  datatype Option<+T> = None | Some(value: T)

  datatype Result<+T, +E> = Ok(value: T) | Err(error: E) {

    /** True if the computation raised */
    predicate IsFailure() {
      Err?
    }

    /** Re-types a failure so that it can be propagated by `:-` */
    function PropagateFailure<U>(): (r: Result<U, E>)
      requires Err?
      ensures r.Err? && r.error == error
    {
      Err(error)
    }

    /** The value of a successful computation */
    function Extract(): T
      requires Ok?
    {
      value
    }
  }
}

/** The exceptions the reporter can raise, as data. */
module Errors {
  import opened Wrappers

  datatype Error =
    /** The CSV file has no header row (`DictReader.fieldnames is None`). */
    | EmptySource
    /** A `KeyError`: the named column is absent from a row. */
    | MissingColumn(column: string)
    /** A `ValueError` from `datetime.strptime(text, "%d/%m/%Y")`. */
    | MalformedDate(text: string)
    /** A `ValueError` from `datetime.replace(year=...)`: the shifted date does not exist. */
    | DateOutOfRange(day: int, month: int, year: int)
    /** An `UnboundLocalError`: the pairing loop never assigned the named variable. */
    | UnboundPeriod(variable: string)
    /** A `ValueError` from `float(text)`. */
    | MalformedNumber(text: string)
    /** A `ZeroDivisionError` in the growth formula. */
    | DivisionByZero

  type Outcome<+T> = Result<T, Error>
}
